=== FILE: README.md ===
# Emotion analysis and the report sidebar, in Dafny

This project models two small parts of a civic issue-reporting system.

**The emotion service** (`ai-service/emotion.py`) wraps a transformer text
classifier. The model covers its post-processing:

- `_preprocess_text` normalises whitespace.
- `analyze_single` ranks the classifier's `(label, score)` list and keeps
  the top label, the top-`k` distribution and the full score map.
  - Blank input gives a fixed neutral record.
  - A classifier exception gives a fixed `unknown` record.
- `analyze_batch` and `detect_emotions` map items to result records, one
  for one.
- `get_emotional_context` totals the primary scores per label over the
  seven `EMOTION_LABELS`, then takes the first maximal total and the
  averages.

**The report sidebar** (`frontend/components/reports/ReportActionSide.tsx`)
is a React component. The model covers:

- the emotion details table with its fallback;
- name capitalisation;
- the status badge's variant, icon and label;
- the sorted emotion breakdown;
- the choices the component makes: the verification prompt, the
  logged-out controls and the emotion card.

The model uses one module per concern:

- `Ranking`: score entries, the stable descending sort and the first
  maximum. Python's `sorted(reverse=True)` and JavaScript's `Array.sort`
  are both stable, so one definition serves both.
- `ScoreDict`: Python dictionaries as insertion-ordered entry lists. A
  repeated key keeps its first position and takes the later value.
- `EmotionText`: `str.split()`, `str.strip()` and `" ".join` over
  Python's whitespace characters, and `_preprocess_text`.
- `Emotion`: the analyzer. The classifier and `round(_, 3)` are the two
  function-typed fields of an `Analyzer` value. Every property therefore
  holds for any classifier and any rounding.
- `ReportActionSide`: the component's helpers and what it renders, as a
  value.

The two loops of the service are methods:

- `Emotion.AnalyzeBatch` appends to a list.
- `Emotion.Summarize` updates the totals dictionary in place and stops at
  the first `KeyError`.

Each method is proved equal to a function (`BatchOf`, `ContextFrom`). The
service's properties are then proved about those functions.

A few places where the system's documentation and its code differ. The
model follows the code in each case, except for the lookup on
`Object.prototype` member names: that is modelled as written
(`ReportActionSide.LookupAsWritten`), but the rendered card uses the
corrected lookup (see Findings and Left out).

- The breakdown order is non-increasing, not strictly descending. Equal
  scores keep their `Object.entries` order
  (`ReportActionSide.BreakdownTiesKeepOrder`).
- An authenticated user who is not verified sees the verification prompt
  instead of the whole sidebar, not only instead of the two controls.
- The lookup fallback is not reached for every unrecognised label (see
  Findings).
- When every text is blank, all seven totals are zero and `max` keeps the
  first label: the dominant emotion is "anger", not "neutral".
- A text the classifier fails on has primary emotion "unknown", which is
  not a label. `get_emotional_context` then raises `KeyError('unknown')`
  and returns no summary.
- `all_emotions` in batch results is the top-three distribution, not the
  full score map.

## Model

| member | source | states |
|---|---|---|
| EmotionText.Split | ai-service/emotion.py:47 | `split()` yields non-empty words without whitespace |
| EmotionText.TrimEnd | ai-service/emotion.py:48 | the result is a prefix, what it drops is whitespace, and it does not end in whitespace |
| EmotionText.TrimStart | ai-service/emotion.py:48 | the result does not start with whitespace and is no longer than the input |
| EmotionText.TrimStartRemovesSpace | ai-service/emotion.py:48 | what the leading trim removes is a whitespace prefix, and the rest of the input is kept |
| EmotionText.StripRemovesOnlyEnds | ai-service/emotion.py:48 | `strip()` is the slice of its input after the leading whitespace, with only whitespace before and after it, and it starts and ends with non-whitespace |
| EmotionText.Join | ai-service/emotion.py:47 | `" ".join(words)` starts with the first word, followed by a single space when there are more words |
| EmotionText.StripEmptyIffAllSpace | ai-service/emotion.py:61 | `text.strip()` is empty exactly when the text is all whitespace |
| EmotionText.SplitEmptyIffAllSpace | ai-service/emotion.py:47 | `split()` yields no word exactly when the text is all whitespace |
| EmotionText.SplitJoin | ai-service/emotion.py:47 | splitting `" ".join(words)` gives the words back |
| EmotionText.SplitKeepsNonSpace | ai-service/emotion.py:47 | the words of `split()`, concatenated, are the non-whitespace characters in order |
| EmotionText.JoinCanonical | ai-service/emotion.py:47 | joining words with one space gives no leading, trailing or doubled whitespace |
| EmotionText.Preprocess | ai-service/emotion.py:42-48 | the output is canonical (single spaces between words, none at the ends) and is the words joined by spaces, so the final `strip()` changes nothing |
| EmotionText.PreprocessEmptyIffBlank | ai-service/emotion.py:42-48 | `""` maps to `""`, and the output is empty exactly when the input is all whitespace |
| EmotionText.PreprocessCanonical | ai-service/emotion.py:42-48 | the output has no whitespace at either end and no two whitespace characters in a row; its only whitespace is single spaces |
| EmotionText.PreprocessKeepsWords | ai-service/emotion.py:47 | the output has exactly the words of the input |
| EmotionText.PreprocessKeepsNonSpace | ai-service/emotion.py:47 | every non-whitespace character is kept, in order |
| EmotionText.PreprocessIdempotent | ai-service/emotion.py:42-48 | preprocessing twice is preprocessing once |
| Ranking.SortByScore | ai-service/emotion.py:74 | the sort is a permutation (multiset equality) in non-increasing score order |
| Ranking.Insert | ai-service/emotion.py:74 | one insertion step of the sort adds exactly the new entry: one more element, same multiset plus the entry |
| Ranking.InsertKeepsOrder | ai-service/emotion.py:74 | inserting into a non-increasing list keeps it non-increasing |
| Ranking.SortKeepsTieOrder | ai-service/emotion.py:74 | the sort is stable: entries with equal scores keep their input order |
| Ranking.FirstMax | ai-service/emotion.py:157 | `max` picks the first entry whose score is maximal: none scores higher, and every earlier one scores strictly lower |
| Ranking.SortedHeadIsFirstMax | ai-service/emotion.py:74-76 | the head of the descending sort is the first maximal entry of the input |
| ScoreDict.Position | ai-service/emotion.py:155 | the position of the first entry with a key, or the length when the key is missing |
| ScoreDict.Put | ai-service/emotion.py:79 | assigning a key keeps keys distinct, holds the new entry and keeps every entry with another key; a new key is appended at the end, and an existing key keeps its position |
| ScoreDict.FromEntries | ai-service/emotion.py:78-81 | a dict comprehension has distinct keys, exactly the entries' names, only values taken from the entries, and for a repeated key the later value |
| ScoreDict.FromDistinctEntries | ai-service/emotion.py:78-81 | with distinct names the dictionary is the entry list itself, in order |
| ScoreDict.SortKeepsDistinct | ai-service/emotion.py:74 | sorting keeps names distinct |
| Emotion.SliceEnd | ai-service/emotion.py:80 | `xs[:k]` ends at `min(k, n)` for `k >= 0` and counts from the end for negative `k` |
| Emotion.IsBlank | ai-service/emotion.py:61 | `not text or len(text.strip()) == 0` holds exactly when the text is all whitespace |
| Emotion.Failed | ai-service/emotion.py:95-101 | the error record has a primary emotion that is not a label, confidence 0.0, an empty distribution, no `all_scores` and the message |
| Emotion.Rounded | ai-service/emotion.py:89 | every score is rounded, and the labels and order are kept |
| Emotion.RoundedKeys | ai-service/emotion.py:89 | rounding keeps the set of labels |
| Emotion.AnalyzeSingle | ai-service/emotion.py:50-101 | the `text` field is the original input; an error result is the fixed `unknown` record; the distribution's labels are among the full score map's labels |
| Emotion.BlankSkipsClassifier | ai-service/emotion.py:61-67 | blank input gives `neutral`, 0.0, an empty distribution and no `all_scores`, whatever the classifier, rounding or `top_k` |
| Emotion.ClassifierSeesPreprocessedText | ai-service/emotion.py:69-72 | other input reaches the classifier only as its non-empty preprocessed form |
| Emotion.ClassifierErrorGivesUnknown | ai-service/emotion.py:93-101 | a raised exception, or an empty score list (IndexError), gives `unknown`, 0.0, an empty distribution and the error message |
| Emotion.AnalyzePrimary | ai-service/emotion.py:74-86 | the primary emotion is the first label with the maximal score, and the confidence is that score rounded |
| Emotion.SortKeepsKeys | ai-service/emotion.py:74 | sorting keeps the set of labels |
| Emotion.AnalyzeAllScores | ai-service/emotion.py:88-90 | `all_scores` holds every returned label, and with distinct labels it is the rounded ranking |
| Emotion.AnalyzeDistribution | ai-service/emotion.py:78-81 | the distribution's labels are the first `top_k` of the ranking; each scores at least as high as every omitted label; with distinct labels it has `min(top_k, n)` entries |
| Emotion.EntryFor | ai-service/emotion.py:116-133 | an entry's `text` is the item (with `content`) or its string; `emotion` and `score` are the primary emotion and confidence; `all_emotions` is present exactly when requested and is the distribution |
| Emotion.BatchOf | ai-service/emotion.py:114-137 | one entry per item, in item order |
| Emotion.BatchOfStep | ai-service/emotion.py:135 | each iteration appends the next item's entry |
| Emotion.AnalyzeBatch | ai-service/emotion.py:114-137 | the loop returns exactly the batch of entries |
| Emotion.DetectEmotions | ai-service/emotion.py:175-176 | one entry per report, in order, always with `all_emotions` |
| Emotion.AllEmotionsIsTopThree | ai-service/emotion.py:132-133 | with more than three distinct labels, `all_emotions` has three entries while `all_scores` has them all |
| Emotion.TextOf | ai-service/emotion.py:116-122 | an item with `content` is analysed by its content; otherwise the text is the same string that is kept as `original` |
| Emotion.OriginalOf | ai-service/emotion.py:116-122 | `original` is the item itself exactly when it has `content` |
| Emotion.FirstUnknownSpec | ai-service/emotion.py:152-155 | no unknown label exactly when every primary emotion is a label; otherwise the first emotion that is not |
| Emotion.FirstUnknown | ai-service/emotion.py:152-155 | an emotion it reports is never one of the labels |
| Emotion.Totals | ai-service/emotion.py:150-155 | one total per label |
| Emotion.Averages | ai-service/emotion.py:165-167 | each total is divided by the input length and rounded, keeping the labels |
| Emotion.PositionInTotals | ai-service/emotion.py:155 | `primary` is a key of `emotion_totals` exactly when it is one of the labels |
| Emotion.TotalsStep | ai-service/emotion.py:152-155 | `emotion_totals[primary] += score` updates that label's total and no other |
| Emotion.ContextFrom | ai-service/emotion.py:150-169 | a successful result is the full summary, with `total_analyzed` the number of entries and one breakdown entry per label |
| Emotion.ContextFromUnknown | ai-service/emotion.py:155 | the first emotion outside the labels raises a `KeyError` for it, whatever follows |
| Emotion.Summarize | ai-service/emotion.py:150-169 | the in-place totalling loop and what follows it give exactly the specified context or `KeyError` |
| Emotion.GetEmotionalContext | ai-service/emotion.py:139-169 | the method returns exactly the specified context or `KeyError` |
| Emotion.ContextOf | ai-service/emotion.py:139-169 | the short dictionary exactly for an empty input; a `KeyError` only for an emotion outside the labels; a summary counts every input |
| Emotion.EmptyContext | ai-service/emotion.py:145-146 | the short dictionary (`neutral`, 0.0) comes back exactly for an empty input |
| Emotion.TotalsEntries | ai-service/emotion.py:150-155 | the totals list the seven labels in order, each with its summed primary scores |
| Emotion.ContextShape | ai-service/emotion.py:159-168 | the breakdown keys are exactly the seven labels, each with its total over the input length, rounded; the dominant emotion is a label; `total_analyzed` is the input length; the average is the mean score, rounded |
| Emotion.ContextDominant | ai-service/emotion.py:157-163 | the dominant emotion is the first label in label order with the maximal total, and the dominant score is that total over the input length, rounded |
| Emotion.TotalsFirstMax | ai-service/emotion.py:157 | the first maximal entry of the totals is a label whose total no label exceeds and every earlier label falls short of |
| Emotion.ContextKeyError | ai-service/emotion.py:152-155 | the context raises exactly when some primary emotion is not a label, and the `KeyError` names the first such emotion |
| Emotion.FailedTextRaisesKeyError | ai-service/emotion.py:153-155 | a text the classifier fails on, after texts that succeed, raises `KeyError('unknown')` |
| Emotion.TotalsAddUp | ai-service/emotion.py:150-159 | without a `KeyError` the seven totals add up to the sum of all scores |
| Emotion.TotalWithinSum | ai-service/emotion.py:155-159 | with non-negative scores, each label's total lies between zero and the sum of all scores |
| Emotion.AllNeutralZero | ai-service/emotion.py:150-155 | neutral entries with zero scores leave every total at zero |
| Emotion.BlankTextsGiveAnger | ai-service/emotion.py:157 | all-blank input gives zero totals, and the dominant emotion is "anger" |
| ReportActionSide.Entry | frontend/components/reports/ReportActionSide.tsx:52-57 | a table entry's text and background classes name the same colour |
| ReportActionSide.KnownDetails | frontend/components/reports/ReportActionSide.tsx:52-94 | the table has an entry exactly for the seven known labels; each entry has matching colour classes and its own description |
| ReportActionSide.EmotionDetails | frontend/components/reports/ReportActionSide.tsx:95-102 | known labels get their table entry; every other label gets the gray "Unknown emotion" fallback; text and background colours always match |
| ReportActionSide.KnownEmotionsAreClassifierLabels | frontend/components/reports/ReportActionSide.tsx:52-94 | the table's keys are exactly the classifier service's seven labels |
| ReportActionSide.KnownColoursDistinct | frontend/components/reports/ReportActionSide.tsx:52-94 | two different known labels have different text colours |
| ReportActionSide.ShadesDistinct | frontend/components/reports/ReportActionSide.tsx:52-94 | the seven colours of the table are pairwise different |
| ReportActionSide.ShadeAt | frontend/components/reports/ReportActionSide.tsx:52-94 | each known label's text class is `text-` followed by its colour |
| ReportActionSide.UnknownLooksNeutral | frontend/components/reports/ReportActionSide.tsx:88-101 | the fallback equals the "neutral" entry except for its description |
| ReportActionSide.LookupAsWritten | frontend/components/reports/ReportActionSide.tsx:96 | the lookup as written returns an inherited member exactly for the `Object.prototype` member names |
| ReportActionSide.LookupAsWrittenAgrees | frontend/components/reports/ReportActionSide.tsx:95-102 | outside those names, the lookup as written is the intended one |
| ReportActionSide.ToStringMissesFallback | frontend/components/reports/ReportActionSide.tsx:96 | "toString" is not a known label, yet the lookup as written does not give the fallback |
| ReportActionSide.UpperAscii | frontend/components/reports/ReportActionSide.tsx:38 | lower-case ASCII letters become upper-case, and every other character is unchanged |
| ReportActionSide.ToUpperCases | frontend/components/reports/ReportActionSide.tsx:190 | keeps the length and upper-cases each character on its own, so no lower-case ASCII letter is left and nothing else changes |
| ReportActionSide.FormatEmotionName | frontend/components/reports/ReportActionSide.tsx:37-39 | keeps the length, upper-cases the first character only, leaves the rest unchanged, and maps `""` to `""` |
| ReportActionSide.FormatEmotionNameIdempotent | frontend/components/reports/ReportActionSide.tsx:37-39 | capitalising twice is capitalising once |
| ReportActionSide.FormattedLabels | frontend/components/reports/ReportActionSide.tsx:289-291 | "anger" shows as "Anger", "neutral" as "Neutral", and so on |
| ReportActionSide.IndexOf | frontend/components/reports/ReportActionSide.tsx:190 | the position of the first occurrence, or the length when there is none |
| ReportActionSide.ReplaceFirst | frontend/components/reports/ReportActionSide.tsx:190 | `replace` with a string pattern changes only the first occurrence |
| ReportActionSide.StatusLabel | frontend/components/reports/ReportActionSide.tsx:190 | the first `_` becomes a space and every other character is upper-cased |
| ReportActionSide.StatusLabelAtFirstUnderscore | frontend/components/reports/ReportActionSide.tsx:190 | for `before_after` with no `_` in `before`, the label is `BEFORE AFTER`, with later underscores kept |
| ReportActionSide.StatusLabelInProgress | frontend/components/reports/ReportActionSide.tsx:190 | "in_progress" shows as "IN PROGRESS" |
| ReportActionSide.StatusLabelSecondUnderscore | frontend/components/reports/ReportActionSide.tsx:190 | "a_b_c" shows as "A B_C" |
| ReportActionSide.StatusVariant | frontend/components/reports/ReportActionSide.tsx:176-184 | "default" exactly for resolved, "secondary" exactly for in_progress, "outline" exactly for pending |
| ReportActionSide.StatusBadge | frontend/components/reports/ReportActionSide.tsx:175-191 | the badge has the status variant, and its text is the status icon followed by the status label |
| ReportActionSide.StatusIcon | frontend/components/reports/ReportActionSide.tsx:186-189 | the icon is empty exactly for a status other than the four named ones; otherwise one icon followed by a space |
| ReportActionSide.StatusBadgeIcons | frontend/components/reports/ReportActionSide.tsx:176-189 | "destructive" exactly for any other status; each of the four named statuses has its own icon, and every other status has none |
| ReportActionSide.RowEntries | frontend/components/reports/ReportActionSide.tsx:314 | the `(emotion, score)` pairs of the rows, in order |
| ReportActionSide.RowsFor | frontend/components/reports/ReportActionSide.tsx:314-331 | one row per entry, in order |
| ReportActionSide.RowFor | frontend/components/reports/ReportActionSide.tsx:314-331 | a row keeps its entry, shows the capitalised label (`formatEmotionName`) and carries that label's details: matching colour classes, its own description for a known label, the fallback otherwise |
| ReportActionSide.BreakdownRows | frontend/components/reports/ReportActionSide.tsx:312-331 | the rows are a permutation of the `all_emotions` entries in non-increasing score order, each with its label's details and capitalised name |
| ReportActionSide.BreakdownTiesKeepOrder | frontend/components/reports/ReportActionSide.tsx:312-313 | rows with equal scores keep their `Object.entries` order |
| ReportActionSide.CardFor | frontend/components/reports/ReportActionSide.tsx:257-383 | the badge shows the first label's text colour class (a `text-` class, the fallback's for an unknown label), its emoji and its capitalised name; the card carries the first record's score and text, and every breakdown entry once in non-increasing score order, each row with its own label's details and capitalised name |
| ReportActionSide.Render | frontend/components/reports/ReportActionSide.tsx:29-385 | prompt exactly when authenticated and not verified; disabled controls exactly when logged out; the status badge; an emotion card exactly when `emotions` is present and non-empty, with the first record's colour, name and sorted rows |
| ReportActionSide.UnverifiedSeesOnlyPrompt | frontend/components/reports/ReportActionSide.tsx:32-34 | an authenticated user who is not verified, or has no user record, sees only the prompt, whatever the report |
| ReportActionSide.ActionsByAuth | frontend/components/reports/ReportActionSide.tsx:111-152 | a logged-out visitor gets the two disabled buttons with their tooltips; a verified user gets the live controls |
| ReportActionSide.PanelContentIndependentOfUser | frontend/components/reports/ReportActionSide.tsx:170-383 | the status badge and the emotion card depend on the report alone |

## Left out

- Loading and running the transformer model is not modelled: the dynamic import, the pipeline construction, the module-level analyzer instance and the inference call. The classifier is a parameter.
- Emotion.Rounded, Emotion.Averages: `round(_, 3)` is an opaque function, and the averages use exact real division. The model makes no precision claim, and no claim about NaN scores.
- `print` logging is not modelled.
- `ai-service/custom_toxicity_classifier.py` is not part of this model. It passes through to a scikit-learn classifier and has no logic of its own.
- Items are reduced to an object with a string `content` or a value known by its `str()`. Other attributes of a report object are not modelled.
- ReportActionSide.UpperAscii: `toUpperCase` is modelled for ASCII letters only. Full Unicode case mapping is not modelled (for example `ß` becoming `SS`). `charAt` is modelled on code points, not on UTF-16 code units.
- ReportActionSide.BreakdownRows: `Object.entries` is modelled in insertion order. JavaScript lists integer-like keys first; the labels are never integer-like.
- ReportActionSide.Render: the JSX markup, layout, styling and the design-system components are not modelled. The rendered tree is reduced to the choices it makes. Not modelled:
  - the category, creator, date (`toLocaleDateString`) and address rows;
  - the share button;
  - the progress bars, percentages and `toFixed`.
- ReportActionSide.Render, ReportActionSide.CardFor, ReportActionSide.RowFor: the card and the breakdown rows use the corrected lookup `EmotionDetails`. For a label that names an `Object.prototype` member (for example "toString"), the component as written looks up a function (or, for `__proto__`, `Object.prototype` itself), whose `textColor`, `bgColor`, `emoji` and `description` are all `undefined`. The primary badge then gets no colour class, and the emoji and the tooltip text render empty. The breakdown row's template-literal classes contain the literal word `undefined`. Only `ReportActionSide.LookupAsWritten` captures that case.
- The `text` field of `ReportActionSide.EmotionRecord` is the analysed item's `content`, when present. When the service sent the string form of an item without `content` (emotion.py lines 121-122), `.content` is `undefined`, so the component shows only the empty quotes `""`. That case is not modelled.
- The auth store (`useAuthStore`) is not modelled. Its two fields are a parameter of `Render`.
- `ReportUpVote`, `ReportIssue` and `EmailVerificationRequired` are not part of this model. They appear only as the choice to show them.

## Findings

| source | as written | input that shows it | evidently intended | confidence | as-written member | corrected member |
|---|---|---|---|---|---|---|
| frontend/components/reports/ReportActionSide.tsx:96 | `emotionMap[emotion] \|\| fallback` on a plain object literal also finds the members every object inherits from `Object.prototype`. Those are truthy, so `\|\|` keeps them | emotion `"toString"` (or `"constructor"`) gives a function with no colour, emoji or description (`ReportActionSide.ToStringMissesFallback`) | every label without its own entry gets the gray "Unknown emotion" fallback | not executed; low, since the classifier's labels never collide with those names | ReportActionSide.LookupAsWritten | ReportActionSide.EmotionDetails |

=== FILE: emotion.dfy ===
/** ai-service/emotion.py: the post-processing around the emotion classifier.

    The transformer pipeline and Python's `round(_, 3)` are opaque: they are
    the two fields of an `Analyzer` value, so every property below holds for
    whatever classifier and rounding are plugged in. */
module Emotion {
  import opened Wrappers
  import opened Ranking
  import opened ScoreDict
  import opened EmotionText

  /** `EmotionAnalyzer.EMOTION_LABELS`, in declaration order. */
  const EMOTION_LABELS: seq<string> := ["anger", "disgust", "fear", "joy", "neutral", "sadness", "surprise"]

  /** The default `top_k` of `analyze_single`, the one `analyze_batch` uses. */
  const DEFAULT_TOP_K: int := 3

  /** `str(e)` for the `IndexError` raised by `sorted_emotions[0]` when the
      classifier returns no scores. */
  const INDEX_ERROR_MESSAGE: string := "list index out of range"

  /** What `self._pipeline(processed_text)[0]` yields: the `(label, score)`
      list, or the message of the exception it raised. */
  datatype Outcome = Scores(raw: seq<Scored>) | Raised(message: string)

  /** An `EmotionAnalyzer` after initialisation: its pipeline, and the
      rounding it applies to scores. */
  datatype Analyzer = Analyzer(classify: string -> Outcome, round3: real -> real)

  /** The dictionary `analyze_single` returns. `allScores` is the optional
      `all_scores` key and `error` the optional `error` key. */
  datatype Analysis = Analysis(
    text: string,
    primaryEmotion: string,
    confidence: real,
    distribution: seq<Scored>,
    allScores: Option<seq<Scored>>,
    error: Option<string>)

  /** `not text or len(text.strip()) == 0`. */
  predicate IsBlank(text: string)
    ensures IsBlank(text) <==> AllSpace(text)
  {
    StripEmptyIffAllSpace(text);
    Strip(text) == []
  }

  /** The end index of the Python slice `xs[:k]` on a list of length `n`; a
      negative `k` counts from the end. */
  function SliceEnd(n: nat, k: int): (e: nat)
    ensures e <= n
    ensures 0 <= k <= n ==> e == k
    ensures k > n ==> e == n
    ensures k < 0 ==> e + (if -k < n then -k else n) == n
  {
    if k >= 0 then (if k < n then k else n)
    else if n + k > 0 then n + k else 0
  }

  /** Every score passed through the analyzer's rounding. */
  function Rounded(round3: real -> real, es: seq<Scored>): (r: seq<Scored>)
    ensures |r| == |es|
    ensures forall i :: 0 <= i < |es| ==> r[i] == Scored(es[i].name, round3(es[i].score))
  {
    if es == [] then [] else [Scored(es[0].name, round3(es[0].score))] + Rounded(round3, es[1..])
  }

  /** The result the `except` branch builds. */
  function Failed(text: string, message: string): (r: Analysis)
    ensures r.primaryEmotion !in EMOTION_LABELS
    ensures r.confidence == 0.0 && r.distribution == [] && r.allScores == None && r.error == Some(message)
  {
    Analysis(text, "unknown", 0.0, [], None, Some(message))
  }

  /** `analyze_single(text, top_k)` (ai-service/emotion.py:50-101). */
  function AnalyzeSingle(a: Analyzer, text: string, topK: int): (r: Analysis)
    ensures r.text == text
    ensures r.error.Some? ==> r == Failed(text, r.error.value)
    ensures r.allScores.Some? ==> r.error == None && Keys(r.distribution) <= Keys(r.allScores.value)
  {
    if IsBlank(text) then Analysis(text, "neutral", 0.0, [], None, None)
    else
      match a.classify(Preprocess(text))
      case Raised(message) => Failed(text, message)
      case Scores(raw) =>
        if raw == [] then Failed(text, INDEX_ERROR_MESSAGE)
        else
          var sorted := SortByScore(raw);
          var top := sorted[0];
          var dist := sorted[..SliceEnd(|sorted|, topK)];
          RoundedKeys(a.round3, dist);
          RoundedKeys(a.round3, sorted);
          assert Keys(dist) <= Keys(sorted);
          Analysis(text, top.name, a.round3(top.score),
                   FromEntries(Rounded(a.round3, dist)), Some(FromEntries(Rounded(a.round3, sorted))), None)
  }

  lemma RoundedKeys(round3: real -> real, es: seq<Scored>)
    ensures Keys(Rounded(round3, es)) == Keys(es)
  {
    var r := Rounded(round3, es);
    forall k | k in Keys(es) ensures k in Keys(r) {
      var i :| 0 <= i < |es| && es[i].name == k;
      assert r[i].name == k;
    }
    forall k | k in Keys(r) ensures k in Keys(es) {
      var i :| 0 <= i < |r| && r[i].name == k;
      assert es[i].name == k;
    }
  }

  lemma PrefixDistinct(xs: seq<Scored>, n: nat)
    requires DistinctNames(xs) && n <= |xs|
    ensures DistinctNames(xs[..n])
  {
  }

  lemma RoundedDistinct(round3: real -> real, es: seq<Scored>)
    requires DistinctNames(es)
    ensures DistinctNames(Rounded(round3, es))
  {
  }

  // ---------------------------------------------------------------------
  // analyze_single

  /** Blank input never reaches the classifier: the result is the same for
      every classifier and every rounding, and it is the fixed neutral record
      without an `all_scores` key. */
  lemma BlankSkipsClassifier(a: Analyzer, b: Analyzer, text: string, topK: int, otherK: int)
    requires AllSpace(text)
    ensures AnalyzeSingle(a, text, topK) == AnalyzeSingle(b, text, otherK)
    ensures AnalyzeSingle(a, text, topK) == Analysis(text, "neutral", 0.0, [], None, None)
  {
    StripEmptyIffAllSpace(text);
  }

  /** Other input reaches the classifier preprocessed: the result depends on
      the classifier only through what it says about `Preprocess(text)`,
      which is non-empty. */
  lemma ClassifierSeesPreprocessedText(a: Analyzer, b: Analyzer, text: string, topK: int)
    requires !AllSpace(text)
    requires a.classify(Preprocess(text)) == b.classify(Preprocess(text)) && a.round3 == b.round3
    ensures Preprocess(text) != []
    ensures AnalyzeSingle(a, text, topK) == AnalyzeSingle(b, text, topK)
  {
    PreprocessEmptyIffBlank(text);
    StripEmptyIffAllSpace(text);
    match a.classify(Preprocess(text)) {
      case Raised(_) =>
      case Scores(raw) =>
        if raw != [] {
          AnalyzeScored(a, text, topK, raw);
          AnalyzeScored(b, text, topK, raw);
        }
    }
  }

  /** A classifier that raises, or returns no scores, yields the `unknown`
      record carrying the exception's message. */
  lemma ClassifierErrorGivesUnknown(a: Analyzer, text: string, topK: int)
    requires !AllSpace(text)
    requires a.classify(Preprocess(text)).Raised? || a.classify(Preprocess(text)) == Scores([])
    ensures var r := AnalyzeSingle(a, text, topK);
      && r.primaryEmotion == "unknown" && r.confidence == 0.0 && r.distribution == []
      && r.allScores == None && r.text == text
      && r.error == Some(if a.classify(Preprocess(text)).Raised?
                         then a.classify(Preprocess(text)).message else INDEX_ERROR_MESSAGE)
  {
    StripEmptyIffAllSpace(text);
  }

  /** The record `analyze_single` builds when the classifier returns a
      non-empty list. */
  lemma AnalyzeScored(a: Analyzer, text: string, topK: int, raw: seq<Scored>)
    requires !AllSpace(text)
    requires a.classify(Preprocess(text)) == Scores(raw) && raw != []
    ensures var sorted := SortByScore(raw);
      AnalyzeSingle(a, text, topK)
        == Analysis(text, sorted[0].name, a.round3(sorted[0].score),
                    FromEntries(Rounded(a.round3, sorted[..SliceEnd(|raw|, topK)])),
                    Some(FromEntries(Rounded(a.round3, sorted))), None)
  {
    StripEmptyIffAllSpace(text);
  }

  /** On success the primary emotion is the first classifier label with the
      highest score, and the confidence is that score rounded. */
  lemma AnalyzePrimary(a: Analyzer, text: string, topK: int, raw: seq<Scored>)
    requires !AllSpace(text)
    requires a.classify(Preprocess(text)) == Scores(raw) && raw != []
    ensures var r := AnalyzeSingle(a, text, topK);
      var m := FirstMax(raw);
      && r.error == None
      && r.primaryEmotion == raw[m].name
      && r.confidence == a.round3(raw[m].score)
      && (forall e :: e in raw ==> e.score <= raw[m].score)
  {
    AnalyzeScored(a, text, topK, raw);
    SortedHeadIsFirstMax(raw);
    forall e | e in raw ensures e.score <= raw[FirstMax(raw)].score {
    }
  }

  lemma SortKeepsKeys(raw: seq<Scored>)
    ensures Keys(SortByScore(raw)) == Keys(raw)
  {
    var sorted := SortByScore(raw);
    forall k | k in Keys(sorted) ensures k in Keys(raw) {
      var e :| e in sorted && e.name == k;
      assert e in multiset(raw);
    }
    forall k | k in Keys(raw) ensures k in Keys(sorted) {
      var e :| e in raw && e.name == k;
      assert e in multiset(sorted);
    }
  }

  /** On success `all_scores` has exactly the labels the classifier
      returned; with distinct labels it is every score, rounded, in ranking
      order. */
  lemma AnalyzeAllScores(a: Analyzer, text: string, topK: int, raw: seq<Scored>)
    requires !AllSpace(text)
    requires a.classify(Preprocess(text)) == Scores(raw) && raw != []
    ensures var r := AnalyzeSingle(a, text, topK);
      && r.allScores.Some? && Keys(r.allScores.value) == Keys(raw)
      && (DistinctNames(raw) ==> r.allScores.value == Rounded(a.round3, SortByScore(raw)))
  {
    AnalyzeScored(a, text, topK, raw);
    var sorted := SortByScore(raw);
    SortKeepsKeys(raw);
    RoundedKeys(a.round3, sorted);
    if DistinctNames(raw) {
      SortKeepsDistinct(raw);
      RoundedDistinct(a.round3, sorted);
      FromDistinctEntries(Rounded(a.round3, sorted));
    }
  }

  /** On success the distribution holds the labels of the first `top_k`
      places of the ranking, each scoring at least as high as every place
      left out; with distinct labels it has exactly `min(top_k, n)` entries
      (Python slice semantics for a negative `top_k`), in ranking order. */
  lemma AnalyzeDistribution(a: Analyzer, text: string, topK: int, raw: seq<Scored>)
    requires !AllSpace(text)
    requires a.classify(Preprocess(text)) == Scores(raw) && raw != []
    ensures var r := AnalyzeSingle(a, text, topK);
      var sorted := SortByScore(raw);
      var n := SliceEnd(|raw|, topK);
      && Keys(r.distribution) == Keys(sorted[..n])
      && (forall i, j :: 0 <= i < n <= j < |raw| ==> sorted[i].score >= sorted[j].score)
      && (DistinctNames(raw) ==> r.distribution == Rounded(a.round3, sorted[..n]) && |r.distribution| == n)
  {
    AnalyzeScored(a, text, topK, raw);
    var sorted := SortByScore(raw);
    var n := SliceEnd(|raw|, topK);
    RoundedKeys(a.round3, sorted[..n]);
    if DistinctNames(raw) {
      SortKeepsDistinct(raw);
      PrefixDistinct(sorted, n);
      RoundedDistinct(a.round3, sorted[..n]);
      FromDistinctEntries(Rounded(a.round3, sorted[..n]));
    }
  }

  // ---------------------------------------------------------------------
  // analyze_batch

  /** An element of `texts`: an object with a `content` attribute (a
      report), or any other value, known by its `str()`. */
  datatype Item = WithContent(content: string) | Other(shown: string)

  /** The `text` key of a batch entry: the item itself when it has
      `content`, otherwise the string that was analysed. */
  datatype Original = TheItem(item: Item) | TheString(s: string)

  /** One dictionary of the list `analyze_batch` returns; `allEmotions` is
      the optional `all_emotions` key. */
  datatype BatchEntry = BatchEntry(text: Original, emotion: string, score: real, allEmotions: Option<seq<Scored>>)

  /** The string `analyze_batch` hands to `analyze_single`. */
  function TextOf(item: Item): (r: string)
    ensures item.WithContent? ==> r == item.content
    ensures OriginalOf(item).TheString? ==> OriginalOf(item).s == r
  {
    match item
    case WithContent(content) => content
    case Other(shown) => shown
  }

  function OriginalOf(item: Item): (r: Original)
    ensures r.TheItem? <==> item.WithContent?
    ensures r.TheItem? ==> r.item == item
  {
    match item
    case WithContent(_) => TheItem(item)
    case Other(shown) => TheString(shown)
  }

  /** The entry `analyze_batch` builds for one item. */
  function EntryFor(a: Analyzer, item: Item, includeAllScores: bool): (e: BatchEntry)
    ensures var an := AnalyzeSingle(a, TextOf(item), DEFAULT_TOP_K);
      && e.text == OriginalOf(item)
      && e.emotion == an.primaryEmotion && e.score == an.confidence
      && (e.allEmotions.Some? <==> includeAllScores)
      && (includeAllScores ==> e.allEmotions.value == an.distribution)
  {
    var an := AnalyzeSingle(a, TextOf(item), DEFAULT_TOP_K);
    BatchEntry(OriginalOf(item), an.primaryEmotion, an.confidence,
               if includeAllScores then Some(an.distribution) else None)
  }

  /** The whole list `analyze_batch` returns, as a value. */
  function BatchOf(a: Analyzer, texts: seq<Item>, includeAllScores: bool): (rs: seq<BatchEntry>)
    ensures |rs| == |texts|
    ensures forall i :: 0 <= i < |texts| ==> rs[i] == EntryFor(a, texts[i], includeAllScores)
  {
    seq(|texts|, i requires 0 <= i < |texts| => EntryFor(a, texts[i], includeAllScores))
  }

  lemma BatchOfStep(a: Analyzer, texts: seq<Item>, includeAllScores: bool, i: nat)
    requires i < |texts|
    ensures BatchOf(a, texts[..i + 1], includeAllScores)
         == BatchOf(a, texts[..i], includeAllScores) + [EntryFor(a, texts[i], includeAllScores)]
  {
    var l := BatchOf(a, texts[..i + 1], includeAllScores);
    var r := BatchOf(a, texts[..i], includeAllScores) + [EntryFor(a, texts[i], includeAllScores)];
    assert |l| == |r|;
    forall k | 0 <= k < |l| ensures l[k] == r[k] {
      assert texts[..i + 1][k] == texts[k];
    }
  }

  /** `analyze_batch(texts, include_all_scores)` (ai-service/emotion.py:103-137):
      one entry per item, in item order. */
  method AnalyzeBatch(a: Analyzer, texts: seq<Item>, includeAllScores: bool) returns (results: seq<BatchEntry>)
    ensures results == BatchOf(a, texts, includeAllScores)
  {
    results := [];
    for i := 0 to |texts|
      invariant results == BatchOf(a, texts[..i], includeAllScores)
    {
      var item := texts[i];
      var text: string;
      var original: Original;
      match item {
        case WithContent(content) =>
          text := content;
          original := TheItem(item);
        case Other(shown) =>
          text := shown;
          original := TheString(text);
      }
      var analysis := AnalyzeSingle(a, text, DEFAULT_TOP_K);
      var result := BatchEntry(original, analysis.primaryEmotion, analysis.confidence, None);
      if includeAllScores {
        result := result.(allEmotions := Some(analysis.distribution));
      }
      BatchOfStep(a, texts, includeAllScores, i);
      results := results + [result];
    }
    assert texts[..|texts|] == texts;
  }

  /** `detect_emotions(reports)` (ai-service/emotion.py:175-176): a batch with
      `all_emotions` always present. */
  method DetectEmotions(a: Analyzer, reports: seq<Item>) returns (results: seq<BatchEntry>)
    ensures |results| == |reports|
    ensures forall i :: 0 <= i < |reports| ==>
      var an := AnalyzeSingle(a, TextOf(reports[i]), DEFAULT_TOP_K);
      && results[i].text == OriginalOf(reports[i])
      && results[i].emotion == an.primaryEmotion
      && results[i].score == an.confidence
      && results[i].allEmotions == Some(an.distribution)
  {
    results := AnalyzeBatch(a, reports, true);
  }

  /** `all_emotions` is the top-three distribution, not the full score map:
      with more than three distinct labels it leaves labels out. */
  lemma AllEmotionsIsTopThree(a: Analyzer, item: Item, raw: seq<Scored>)
    requires !AllSpace(TextOf(item))
    requires a.classify(Preprocess(TextOf(item))) == Scores(raw)
    requires DistinctNames(raw) && |raw| > 3
    ensures var e := EntryFor(a, item, true);
      var an := AnalyzeSingle(a, TextOf(item), DEFAULT_TOP_K);
      && |e.allEmotions.value| == 3
      && an.allScores.Some? && |an.allScores.value| == |raw|
  {
    AnalyzeDistribution(a, TextOf(item), DEFAULT_TOP_K, raw);
    AnalyzeAllScores(a, TextOf(item), DEFAULT_TOP_K, raw);
  }

  // ---------------------------------------------------------------------
  // get_emotional_context

  /** The two shapes of dictionary `get_emotional_context` returns. */
  datatype Context =
    | NoTexts
    | Summary(dominantEmotion: string, dominantScore: real, averageConfidence: real,
              breakdown: seq<Scored>, totalAnalyzed: nat)
  {
    /** The `dominant_emotion` key, present in both shapes. */
    function Dominant(): string {
      if NoTexts? then "neutral" else dominantEmotion
    }

    /** The `average_confidence` key, present in both shapes. */
    function Average(): real {
      if NoTexts? then 0.0 else averageConfidence
    }
  }

  /** The `KeyError` raised by `emotion_totals[primary] += score`. */
  datatype KeyError = KeyError(key: string)

  /** The summed `score` of the entries whose `emotion` is `label`. */
  function Total(name: string, rs: seq<BatchEntry>): real {
    if rs == [] then 0.0
    else Total(name, rs[..|rs| - 1]) + (if rs[|rs| - 1].emotion == name then rs[|rs| - 1].score else 0.0)
  }

  /** `sum(a["score"] for a in analyses)`. */
  function ScoreSum(rs: seq<BatchEntry>): real {
    if rs == [] then 0.0 else ScoreSum(rs[..|rs| - 1]) + rs[|rs| - 1].score
  }

  /** The `emotion` of the first entry that is not one of `EMOTION_LABELS`. */
  function FirstUnknown(rs: seq<BatchEntry>): (r: Option<string>)
    ensures r.Some? ==> r.value !in EMOTION_LABELS
  {
    if rs == [] then None
    else
      var init := rs[..|rs| - 1];
      match FirstUnknown(init)
      case Some(u) => Some(u)
      case None =>
        if rs[|rs| - 1].emotion in EMOTION_LABELS then None else Some(rs[|rs| - 1].emotion)
  }

  /** `FirstUnknown` finds nothing exactly when every emotion is a known
      label, and otherwise the emotion of the first entry that is not. */
  lemma {:induction false} FirstUnknownSpec(rs: seq<BatchEntry>)
    ensures FirstUnknown(rs) == None <==> forall i :: 0 <= i < |rs| ==> rs[i].emotion in EMOTION_LABELS
    ensures FirstUnknown(rs).Some? ==>
      exists i :: (0 <= i < |rs| && rs[i].emotion == FirstUnknown(rs).value && rs[i].emotion !in EMOTION_LABELS
                   && forall j :: 0 <= j < i ==> rs[j].emotion in EMOTION_LABELS)
  {
    if rs != [] {
      var init := rs[..|rs| - 1];
      FirstUnknownSpec(init);
      assert forall i :: 0 <= i < |init| ==> init[i] == rs[i];
      if FirstUnknown(init).Some? {
        var i :| 0 <= i < |init| && init[i].emotion == FirstUnknown(init).value
          && init[i].emotion !in EMOTION_LABELS && forall j :: 0 <= j < i ==> init[j].emotion in EMOTION_LABELS;
        assert rs[i] == init[i];
      }
    }
  }

  /** `emotion_totals.items()` once the loop is done. */
  function Totals(rs: seq<BatchEntry>): (t: seq<Scored>)
    ensures |t| == |EMOTION_LABELS|
  {
    seq(|EMOTION_LABELS|, i requires 0 <= i < |EMOTION_LABELS| => Scored(EMOTION_LABELS[i], Total(EMOTION_LABELS[i], rs)))
  }

  /** Each total divided by the number of texts, then rounded. */
  function Averages(round3: real -> real, t: seq<Scored>, n: nat): (r: seq<Scored>)
    requires n > 0
    ensures |r| == |t| && Names(r) == Names(t)
    ensures forall i :: 0 <= i < |t| ==> r[i].score == round3(t[i].score / n as real)
  {
    seq(|t|, i requires 0 <= i < |t| => Scored(t[i].name, round3(t[i].score / n as real)))
  }

  /** What the part of `get_emotional_context` after `analyze_batch`
      computes from the analyses (ai-service/emotion.py:150-169); the
      source divides by `len(texts)` and `len(analyses)`, which are equal. */
  function ContextFrom(round3: real -> real, rs: seq<BatchEntry>): (r: Result<Context, KeyError>)
    requires rs != []
    ensures r.Success? ==> r.value.Summary? && r.value.totalAnalyzed == |rs| && |r.value.breakdown| == |EMOTION_LABELS|
  {
    match FirstUnknown(rs)
    case Some(u) => Failure(KeyError(u))
    case None =>
      var t := Totals(rs);
      var n := |rs|;
      var m := FirstMax(t);
      Success(Summary(t[m].name, round3(t[m].score / n as real),
                      round3(ScoreSum(rs) / n as real), Averages(round3, t, n), n))
  }

  /** What `get_emotional_context(texts)` returns, or the `KeyError` it
      raises (ai-service/emotion.py:139-169). */
  function ContextOf(a: Analyzer, texts: seq<Item>): (r: Result<Context, KeyError>)
    ensures r == Success(NoTexts) <==> texts == []
    ensures r.Failure? ==> r.error.key !in EMOTION_LABELS
    ensures r.Success? && r.value.Summary? ==> r.value.totalAnalyzed == |texts|
  {
    if texts == [] then Success(NoTexts)
    else ContextFrom(a.round3, BatchOf(a, texts, true))
  }

  lemma {:induction false} FirstUnknownExtends(rs: seq<BatchEntry>, k: nat)
    requires k <= |rs| && FirstUnknown(rs[..k]).Some?
    ensures FirstUnknown(rs) == FirstUnknown(rs[..k])
    decreases |rs| - k
  {
    if k < |rs| {
      assert rs[..k + 1][..k] == rs[..k];
      FirstUnknownExtends(rs, k + 1);
    } else {
      assert rs[..k] == rs;
    }
  }

  lemma FirstUnknownStep(rs: seq<BatchEntry>, i: nat)
    requires i < |rs| && FirstUnknown(rs[..i]) == None
    ensures FirstUnknown(rs[..i + 1]) == if rs[i].emotion in EMOTION_LABELS then None else Some(rs[i].emotion)
  {
    assert rs[..i + 1][..i] == rs[..i];
  }

  lemma TotalStep(name: string, rs: seq<BatchEntry>, i: nat)
    requires i < |rs|
    ensures Total(name, rs[..i + 1]) == Total(name, rs[..i]) + (if rs[i].emotion == name then rs[i].score else 0.0)
  {
    assert rs[..i + 1][..i] == rs[..i];
  }

  /** `primary in emotion_totals` exactly when `primary` is a label. */
  lemma PositionInTotals(rs: seq<BatchEntry>, name: string)
    ensures Position(Totals(rs), name) < |EMOTION_LABELS| <==> name in EMOTION_LABELS
  {
    var t := Totals(rs);
    if name in EMOTION_LABELS {
      var k :| 0 <= k < |EMOTION_LABELS| && EMOTION_LABELS[k] == name;
      assert t[k].name == name;
    } else {
      assert Position(t, name) == |t|;
    }
  }

  lemma LabelsDistinct()
    ensures forall j, k :: 0 <= j < k < |EMOTION_LABELS| ==> EMOTION_LABELS[j] != EMOTION_LABELS[k]
  {
  }

  /** `emotion_totals[primary] += score` for a known label adds the score
      to that label's total and to no other. */
  lemma TotalsStep(rs: seq<BatchEntry>, i: nat, t: seq<Scored>, p: nat)
    requires i < |rs| && t == Totals(rs[..i])
    requires p == Position(t, rs[i].emotion) && p < |t|
    ensures Totals(rs[..i + 1]) == t[p := Scored(t[p].name, t[p].score + rs[i].score)]
  {
    LabelsDistinct();
    var u := t[p := Scored(t[p].name, t[p].score + rs[i].score)];
    forall k | 0 <= k < |EMOTION_LABELS| ensures Totals(rs[..i + 1])[k] == u[k] {
      TotalStep(EMOTION_LABELS[k], rs, i);
    }
  }

  /** `get_emotional_context(texts)` (ai-service/emotion.py:139-169). */
  method GetEmotionalContext(a: Analyzer, texts: seq<Item>) returns (r: Result<Context, KeyError>)
    ensures r == ContextOf(a, texts)
  {
    if texts == [] {
      return Success(NoTexts);
    }
    var analyses := AnalyzeBatch(a, texts, true);
    r := Summarize(a.round3, analyses);
  }

  /** Once an entry's emotion is not a label, the context is the
      `KeyError` for it, whatever follows. */
  lemma ContextFromUnknown(round3: real -> real, rs: seq<BatchEntry>, i: nat)
    requires i < |rs| && FirstUnknown(rs[..i]) == None && rs[i].emotion !in EMOTION_LABELS
    ensures ContextFrom(round3, rs) == Failure(KeyError(rs[i].emotion))
  {
    FirstUnknownStep(rs, i);
    FirstUnknownExtends(rs, i + 1);
  }

  /** With every emotion a label, the context is built from the totals. */
  lemma ContextFromKnown(round3: real -> real, rs: seq<BatchEntry>, totals: seq<Scored>)
    requires rs != [] && FirstUnknown(rs) == None && totals == Totals(rs)
    ensures var n := |rs|;
      var dominant := totals[FirstMax(totals)];
      ContextFrom(round3, rs)
        == Success(Summary(dominant.name, round3(dominant.score / n as real),
                           round3(ScoreSum(rs) / n as real), Averages(round3, totals, n), n))
  {
  }

  /** The loop of `get_emotional_context`: totals the primary scores per
      label in a dictionary updated in place (`emotion_totals[primary] +=
      score`, a `KeyError` for a label outside `EMOTION_LABELS`), then takes
      the first maximal total and the averages. */
  method Summarize(round3: real -> real, analyses: seq<BatchEntry>) returns (r: Result<Context, KeyError>)
    requires analyses != []
    ensures r == ContextFrom(round3, analyses)
  {
    var totals := seq(|EMOTION_LABELS|, k requires 0 <= k < |EMOTION_LABELS| => Scored(EMOTION_LABELS[k], 0.0));
    assert totals == Totals(analyses[..0]);
    for i := 0 to |analyses|
      invariant totals == Totals(analyses[..i])
      invariant FirstUnknown(analyses[..i]) == None
    {
      var primary := analyses[i].emotion;
      var score := analyses[i].score;
      var p := Position(totals, primary);
      PositionInTotals(analyses[..i], primary);
      if p == |totals| {
        ContextFromUnknown(round3, analyses, i);
        return Failure(KeyError(primary));
      }
      FirstUnknownStep(analyses, i);
      TotalsStep(analyses, i, totals, p);
      totals := totals[p := Scored(totals[p].name, totals[p].score + score)];
    }
    assert analyses[..|analyses|] == analyses;
    ContextFromKnown(round3, analyses, totals);
    var dominant := totals[FirstMax(totals)];
    var n := |analyses|;
    var average := ScoreSum(analyses) / n as real;
    var breakdown := seq(|totals|, k requires 0 <= k < |totals| => Scored(totals[k].name, round3(totals[k].score / n as real)));
    assert breakdown == Averages(round3, totals, n);
    r := Success(Summary(dominant.name, round3(dominant.score / n as real), round3(average), breakdown, n));
  }

  // ---------------------------------------------------------------------
  // What get_emotional_context promises

  /** The totals in `EMOTION_LABELS` order: entry `k` is label `k` with its
      summed score. */
  lemma TotalsEntries(rs: seq<BatchEntry>)
    ensures Names(Totals(rs)) == EMOTION_LABELS
    ensures forall k :: 0 <= k < |EMOTION_LABELS| ==> Totals(rs)[k] == Scored(EMOTION_LABELS[k], Total(EMOTION_LABELS[k], rs))
  {
  }

  /** A non-empty input that raises no `KeyError` yields the full summary:
      the breakdown has exactly the seven labels, in order, each with its
      total divided by the input length and rounded; the dominant emotion is
      one of the labels; `total_analyzed` is the input length and the average
      confidence is the mean score, rounded. */
  lemma ContextShape(a: Analyzer, texts: seq<Item>)
    requires texts != [] && ContextOf(a, texts).Success?
    ensures var c := ContextOf(a, texts).value;
      var rs := BatchOf(a, texts, true);
      && c.Summary?
      && Names(c.breakdown) == EMOTION_LABELS
      && (forall k :: 0 <= k < |EMOTION_LABELS| ==>
            c.breakdown[k].score == a.round3(Total(EMOTION_LABELS[k], rs) / |texts| as real))
      && c.dominantEmotion in EMOTION_LABELS
      && c.totalAnalyzed == |texts|
      && c.averageConfidence == a.round3(ScoreSum(rs) / |texts| as real)
  {
    var rs := BatchOf(a, texts, true);
    TotalsEntries(rs);
    var t := Totals(rs);
    var c := ContextOf(a, texts).value;
    assert Names(c.breakdown) == Names(t);
    var m := FirstMax(t);
    assert c.dominantEmotion == EMOTION_LABELS[m];
  }

  /** The short dictionary comes back exactly for an empty input, and it
      reads "neutral" with average confidence 0.0. */
  lemma EmptyContext(a: Analyzer, texts: seq<Item>)
    ensures ContextOf(a, texts) == Success(NoTexts) <==> texts == []
    ensures texts == [] ==>
      ContextOf(a, texts).value.Dominant() == "neutral" && ContextOf(a, texts).value.Average() == 0.0
  {
  }

  /** With non-negative scores (the classifier's probabilities), a label's
      total lies between zero and the sum of all scores. */
  lemma {:induction false} TotalWithinSum(name: string, rs: seq<BatchEntry>)
    requires forall i :: 0 <= i < |rs| ==> 0.0 <= rs[i].score
    ensures 0.0 <= Total(name, rs) <= ScoreSum(rs)
  {
    if rs != [] {
      var init := rs[..|rs| - 1];
      assert forall i :: 0 <= i < |init| ==> init[i] == rs[i];
      TotalWithinSum(name, init);
    }
  }

  /** `dominant_emotion` is the first label, in `EMOTION_LABELS` order, whose
      total is maximal, and `dominant_score` is that total over the input
      length, rounded. */
  lemma ContextDominant(a: Analyzer, texts: seq<Item>)
    requires texts != [] && ContextOf(a, texts).Success?
    ensures var c := ContextOf(a, texts).value;
      var rs := BatchOf(a, texts, true);
      var m := FirstMax(Totals(rs));
      && m < |EMOTION_LABELS|
      && c.dominantEmotion == EMOTION_LABELS[m]
      && c.dominantScore == a.round3(Total(EMOTION_LABELS[m], rs) / |texts| as real)
      && (forall k :: 0 <= k < |EMOTION_LABELS| ==> Total(EMOTION_LABELS[k], rs) <= Total(EMOTION_LABELS[m], rs))
      && (forall k :: 0 <= k < m ==> Total(EMOTION_LABELS[k], rs) < Total(EMOTION_LABELS[m], rs))
  {
    var rs := BatchOf(a, texts, true);
    TotalsEntries(rs);
    TotalsFirstMax(rs);
  }

  /** The first maximal entry of the totals is the first label whose total
      is maximal. */
  lemma TotalsFirstMax(rs: seq<BatchEntry>)
    ensures var m := FirstMax(Totals(rs));
      && (forall k :: 0 <= k < |EMOTION_LABELS| ==> Total(EMOTION_LABELS[k], rs) <= Total(EMOTION_LABELS[m], rs))
      && (forall k :: 0 <= k < m ==> Total(EMOTION_LABELS[k], rs) < Total(EMOTION_LABELS[m], rs))
  {
    TotalsEntries(rs);
    var t := Totals(rs);
    var m := FirstMax(t);
    forall k | 0 <= k < |EMOTION_LABELS| ensures Total(EMOTION_LABELS[k], rs) <= Total(EMOTION_LABELS[m], rs) {
      assert t[k].score <= t[m].score;
    }
    forall k | 0 <= k < m ensures Total(EMOTION_LABELS[k], rs) < Total(EMOTION_LABELS[m], rs) {
      assert t[k].score < t[m].score;
    }
  }

  /** `get_emotional_context` raises exactly when some text's primary
      emotion is not one of the seven labels, and the `KeyError` names the
      first such emotion. */
  lemma ContextKeyError(a: Analyzer, texts: seq<Item>)
    ensures ContextOf(a, texts).Failure? <==>
      exists i :: 0 <= i < |texts| && AnalyzeSingle(a, TextOf(texts[i]), DEFAULT_TOP_K).primaryEmotion !in EMOTION_LABELS
    ensures ContextOf(a, texts).Failure? ==>
      exists i :: 0 <= i < |texts|
        && ContextOf(a, texts).error == KeyError(AnalyzeSingle(a, TextOf(texts[i]), DEFAULT_TOP_K).primaryEmotion)
        && AnalyzeSingle(a, TextOf(texts[i]), DEFAULT_TOP_K).primaryEmotion !in EMOTION_LABELS
        && forall j :: 0 <= j < i ==> AnalyzeSingle(a, TextOf(texts[j]), DEFAULT_TOP_K).primaryEmotion in EMOTION_LABELS
  {
    if texts != [] {
      var rs := BatchOf(a, texts, true);
      FirstUnknownSpec(rs);
    }
  }

  /** A text the classifier fails on has primary emotion "unknown", which
      is not a label: once every earlier text succeeded, the whole context
      raises `KeyError('unknown')`. */
  lemma FailedTextRaisesKeyError(a: Analyzer, texts: seq<Item>, i: nat)
    requires i < |texts| && AnalyzeSingle(a, TextOf(texts[i]), DEFAULT_TOP_K).error.Some?
    requires forall j :: 0 <= j < i ==> AnalyzeSingle(a, TextOf(texts[j]), DEFAULT_TOP_K).primaryEmotion in EMOTION_LABELS
    ensures ContextOf(a, texts) == Failure(KeyError("unknown"))
  {
    var rs := BatchOf(a, texts, true);
    assert rs[i].emotion == "unknown";
    FirstUnknownSpec(rs[..i]);
    assert FirstUnknown(rs[..i]) == None by {
      forall j | 0 <= j < i ensures rs[..i][j].emotion in EMOTION_LABELS {
        assert rs[..i][j] == rs[j];
      }
    }
    ContextFromUnknown(a.round3, rs, i);
  }

  /** Every score lands in exactly one label's total when no `KeyError` is
      raised: the seven totals add up to the sum of the scores. */
  lemma {:induction false} TotalsAddUp(rs: seq<BatchEntry>)
    requires FirstUnknown(rs) == None
    ensures Total("anger", rs) + Total("disgust", rs) + Total("fear", rs) + Total("joy", rs)
          + Total("neutral", rs) + Total("sadness", rs) + Total("surprise", rs) == ScoreSum(rs)
  {
    if rs != [] {
      TotalsAddUp(rs[..|rs| - 1]);
    }
  }

  /** When every text is blank each analysis is neutral with confidence
      0.0, so all seven totals are zero and `max` keeps the first label:
      the dominant emotion is "anger", not "neutral". */
  lemma BlankTextsGiveAnger(a: Analyzer, texts: seq<Item>)
    requires texts != [] && forall i :: 0 <= i < |texts| ==> AllSpace(TextOf(texts[i]))
    ensures ContextOf(a, texts).Success?
    ensures ContextOf(a, texts).value.dominantEmotion == "anger"
  {
    var rs := BatchOf(a, texts, true);
    forall i | 0 <= i < |rs| ensures rs[i].emotion == "neutral" && rs[i].score == 0.0 {
      BlankSkipsClassifier(a, a, TextOf(texts[i]), DEFAULT_TOP_K, DEFAULT_TOP_K);
    }
    AllNeutralZero(rs);
    FirstUnknownSpec(rs);
    TotalsEntries(rs);
    var t := Totals(rs);
    assert t[0].score == t[FirstMax(t)].score;
  }

  lemma {:induction false} AllNeutralZero(rs: seq<BatchEntry>)
    requires forall i :: 0 <= i < |rs| ==> rs[i].emotion == "neutral" && rs[i].score == 0.0
    ensures forall name :: Total(name, rs) == 0.0
  {
    if rs != [] {
      AllNeutralZero(rs[..|rs| - 1]);
    }
  }
}

=== FILE: emotion_text.dfy ===
/** Whitespace handling in ai-service/emotion.py: Python's `str.split()`
    (no separator), `" ".join`, `str.strip()` and `_preprocess_text`, which
    combines them. */
module EmotionText {

  /** Python's `str.isspace`, the test `split()` and `strip()` break and
      trim on: tab to carriage return, the four separators U+001C to U+001F,
      space, U+0085, U+00A0, U+1680, U+2000 to U+200A, U+2028, U+2029,
      U+202F, U+205F and U+3000. */
  predicate IsSpace(c: char) {
    || ('\t' <= c <= '\r')
    || ('\U{1C}' <= c <= ' ')
    || c == '\U{85}' || c == '\U{A0}' || c == '\U{1680}'
    || ('\U{2000}' <= c <= '\U{200A}')
    || c == '\U{2028}' || c == '\U{2029}' || c == '\U{202F}' || c == '\U{205F}' || c == '\U{3000}'
  }

  predicate AllSpace(s: string) {
    forall i :: 0 <= i < |s| ==> IsSpace(s[i])
  }

  predicate NoSpace(s: string) {
    forall i :: 0 <= i < |s| ==> !IsSpace(s[i])
  }

  /** A sequence of words as `split()` yields them: none empty, none holding
      whitespace. */
  predicate WellFormedWords(ws: seq<string>) {
    forall i :: 0 <= i < |ws| ==> ws[i] != [] && NoSpace(ws[i])
  }

  /** The shape `_preprocess_text` promises: no whitespace at either end, no
      two whitespace characters next to each other, and every whitespace
      character a plain space. */
  predicate Canonical(t: string) {
    && (|t| > 0 ==> !IsSpace(t[0]) && !IsSpace(t[|t| - 1]))
    && (forall i :: 0 <= i < |t| - 1 && IsSpace(t[i]) ==> !IsSpace(t[i + 1]))
    && (forall i :: 0 <= i < |t| && IsSpace(t[i]) ==> t[i] == ' ')
  }

  /** `s` without its leading whitespace. */
  function TrimStart(s: string): (r: string)
    ensures |r| <= |s|
    ensures r == [] || !IsSpace(r[0])
  {
    if s != [] && IsSpace(s[0]) then TrimStart(s[1..]) else s
  }

  /** What `TrimStart` removes is a whitespace prefix. */
  lemma {:induction false} TrimStartRemovesSpace(s: string)
    ensures var r := TrimStart(s); s == s[..|s| - |r|] + r && AllSpace(s[..|s| - |r|])
  {
    if s != [] && IsSpace(s[0]) {
      TrimStartRemovesSpace(s[1..]);
      var r := TrimStart(s);
      var k := |s| - |r|;
      assert s[1..][..k - 1] == s[1..k];
      assert s[..k] == [s[0]] + s[1..k];
    }
  }

  /** `s` without its trailing whitespace. */
  function TrimEnd(s: string): (r: string)
    ensures |r| <= |s| && r == s[..|r|]
    ensures AllSpace(s[|r|..])
    ensures r == [] || !IsSpace(r[|r| - 1])
  {
    if s != [] && IsSpace(s[|s| - 1]) then
      var r := TrimEnd(s[..|s| - 1]);
      assert s[|r|..] == s[..|s| - 1][|r|..] + [s[|s| - 1]];
      r
    else s
  }

  /** Python's `s.strip()`. */
  function Strip(s: string): (r: string)
    ensures |r| <= |s|
    ensures r == [] || (!IsSpace(r[0]) && !IsSpace(r[|r| - 1]))
  {
    TrimEnd(TrimStart(s))
  }

  /** `strip()` removes the whitespace ends and nothing else: the result is
      the slice of `s` starting where its leading whitespace ends, what lies
      before and after that slice is whitespace, and the slice itself neither
      starts nor ends with whitespace. */
  lemma StripRemovesOnlyEnds(s: string)
    ensures var i, r := |s| - |TrimStart(s)|, Strip(s);
      && i + |r| <= |s|
      && r == s[i..i + |r|]
      && AllSpace(s[..i])
      && AllSpace(s[i + |r|..])
      && (r == [] || (!IsSpace(r[0]) && !IsSpace(r[|r| - 1])))
  {
    TrimStartRemovesSpace(s);
    var t := TrimStart(s);
    SliceOfSuffix(s, t, TrimEnd(t));
  }

  /** A prefix `r` of a suffix `t` of `s` is a slice of `s`, and what follows
      it in `t` is what follows it in `s`. */
  lemma SliceOfSuffix(s: string, t: string, r: string)
    requires |t| <= |s| && s == s[..|s| - |t|] + t
    requires |r| <= |t| && r == t[..|r|]
    ensures var i := |s| - |t|; i + |r| <= |s| && r == s[i..i + |r|] && s[i + |r|..] == t[|r|..]
  {
    var i := |s| - |t|;
    assert t == s[i..];
  }

  /** The longest prefix of `s` without whitespace. */
  function LeadingWord(s: string): (w: string)
    ensures |w| <= |s|
    ensures NoSpace(w)
    ensures s != [] && !IsSpace(s[0]) ==> |w| > 0
  {
    if s == [] || IsSpace(s[0]) then [] else [s[0]] + LeadingWord(s[1..])
  }

  /** `LeadingWord` stops at the end or at whitespace. */
  lemma {:induction false} LeadingWordIsMaximal(s: string)
    ensures var w := LeadingWord(s); s == w + s[|w|..] && (|w| == |s| || IsSpace(s[|w|]))
  {
    if s != [] && !IsSpace(s[0]) {
      LeadingWordIsMaximal(s[1..]);
      var w := LeadingWord(s);
      assert s[1..][|w| - 1..] == s[|w|..];
    }
  }

  /** Python's `s.split()`: the maximal runs of non-whitespace characters. */
  function Split(s: string): (ws: seq<string>)
    ensures WellFormedWords(ws)
    decreases |s|
  {
    var t := TrimStart(s);
    if t == [] then []
    else
      var w := LeadingWord(t);
      var rest := Split(t[|w|..]);
      assert forall i :: 0 < i <= |rest| ==> ([w] + rest)[i] == rest[i - 1];
      [w] + rest
  }

  /** Python's `" ".join(ws)`. */
  function Join(ws: seq<string>): (r: string)
    ensures ws != [] ==> ws[0] <= r
    ensures |ws| > 1 ==> |r| > |ws[0]| && r[|ws[0]|] == ' '
  {
    if ws == [] then []
    else if |ws| == 1 then ws[0]
    else ws[0] + " " + Join(ws[1..])
  }

  /** `_preprocess_text` (ai-service/emotion.py:42-48). */
  function Preprocess(text: string): (r: string)
    ensures Canonical(r)
    ensures r == Join(Split(text))
  {
    if text == [] then []
    else
      JoinCanonical(Split(text));
      StripCanonical(Join(Split(text)));
      Strip(Join(Split(text)))
  }

  /** The characters of `s` that are not whitespace, in order. */
  function NonSpaceChars(s: string): string {
    if s == [] then [] else (if IsSpace(s[0]) then [] else [s[0]]) + NonSpaceChars(s[1..])
  }

  /** The concatenation of `ws`. */
  function Concat(ws: seq<string>): string {
    if ws == [] then [] else ws[0] + Concat(ws[1..])
  }

  // ---------------------------------------------------------------------
  // Strip and blank input

  lemma {:induction false} TrimStartOfAllSpace(s: string)
    ensures TrimStart(s) == [] <==> AllSpace(s)
  {
    if s != [] && IsSpace(s[0]) {
      TrimStartOfAllSpace(s[1..]);
      assert AllSpace(s) <==> AllSpace(s[1..]) by {
        assert forall i :: 0 < i < |s| ==> s[i] == s[1..][i - 1];
      }
    }
  }

  /** `s.strip()` is empty exactly when `s` is nothing but whitespace: the
      blank test of `analyze_single`. */
  lemma {:induction false} StripEmptyIffAllSpace(s: string)
    ensures Strip(s) == [] <==> AllSpace(s)
  {
    TrimStartOfAllSpace(s);
  }

  /** `split()` yields no word exactly when `s` is nothing but whitespace. */
  lemma SplitEmptyIffAllSpace(s: string)
    ensures Split(s) == [] <==> AllSpace(s)
  {
    TrimStartOfAllSpace(s);
  }

  /** Stripping changes nothing in a canonical string: the `.strip()`
      after the join has nothing left to remove. */
  lemma StripCanonical(t: string)
    requires Canonical(t)
    ensures Strip(t) == t
  {
  }

  // ---------------------------------------------------------------------
  // split and join

  lemma {:induction false} LeadingWordOf(w: string, tail: string)
    requires NoSpace(w)
    requires tail == [] || IsSpace(tail[0])
    ensures LeadingWord(w + tail) == w
  {
    if w == [] {
    } else {
      assert (w + tail)[1..] == w[1..] + tail;
      LeadingWordOf(w[1..], tail);
    }
  }

  lemma SplitSkipsLeadingSpace(s: string)
    requires s != [] && IsSpace(s[0])
    ensures Split(s) == Split(s[1..])
  {
  }

  /** `" ".join` of well-formed words starts and ends with a word character. */
  lemma {:induction false} JoinEnds(ws: seq<string>)
    requires WellFormedWords(ws) && ws != []
    ensures Join(ws) != [] && !IsSpace(Join(ws)[0]) && !IsSpace(Join(ws)[|Join(ws)| - 1])
  {
    if |ws| > 1 {
      JoinEnds(ws[1..]);
      assert Join(ws) == ws[0] + (" " + Join(ws[1..]));
    }
  }

  /** A word followed by nothing or by whitespace splits off first. */
  lemma SplitWordThen(w: string, tail: string)
    requires w != [] && NoSpace(w)
    requires tail == [] || IsSpace(tail[0])
    ensures Split(w + tail) == [w] + Split(tail)
  {
    var s := w + tail;
    assert s[0] == w[0];
    assert TrimStart(s) == s;
    LeadingWordOf(w, tail);
    assert s[|w|..] == tail;
  }

  /** One more word in front of a non-empty join splits off first. */
  lemma SplitJoinCons(w: string, rest: seq<string>)
    requires w != [] && NoSpace(w)
    requires WellFormedWords(rest) && rest != []
    ensures Split(Join([w] + rest)) == [w] + Split(Join(rest))
  {
    var j := Join(rest);
    JoinEnds(rest);
    var tail := " " + j;
    assert ([w] + rest)[1..] == rest;
    assert Join([w] + rest) == w + tail;
    SplitWordThen(w, tail);
    SplitSkipsLeadingSpace(tail);
    assert tail[1..] == j;
  }

  /** Splitting what `" ".join` built gives the words back: the two are
      inverse on well-formed word lists. */
  lemma {:induction false} SplitJoin(ws: seq<string>)
    requires WellFormedWords(ws)
    ensures Split(Join(ws)) == ws
  {
    if ws == [] {
      assert Join(ws) == [] && TrimStart([]) == [];
    } else if |ws| == 1 {
      SplitWordThen(ws[0], []);
      assert ws[0] + [] == ws[0];
      assert Join(ws) == ws[0];
    } else {
      assert ws == [ws[0]] + ws[1..];
      SplitJoin(ws[1..]);
      SplitJoinCons(ws[0], ws[1..]);
    }
  }

  /** `" ".join` of well-formed words is canonical. */
  lemma {:induction false} JoinCanonical(ws: seq<string>)
    requires WellFormedWords(ws)
    ensures Canonical(Join(ws))
  {
    if |ws| > 1 {
      var w, j := ws[0], Join(ws[1..]);
      JoinCanonical(ws[1..]);
      JoinEnds(ws[1..]);
      var t := w + " " + j;
      assert Join(ws) == t;
      forall i | 0 <= i < |t| && IsSpace(t[i])
        ensures t[i] == ' ' && (i < |t| - 1 ==> !IsSpace(t[i + 1]))
      {
        if i == |w| {
          assert t[i + 1] == j[0];
        } else if i > |w| {
          assert t[i] == j[i - |w| - 1];
          if i < |t| - 1 { assert t[i + 1] == j[i - |w|]; }
        }
      }
      assert t[0] == w[0];
      assert t[|t| - 1] == j[|j| - 1];
    }
  }

  // ---------------------------------------------------------------------
  // Non-whitespace content

  lemma {:induction false} NonSpaceAppend(a: string, b: string)
    ensures NonSpaceChars(a + b) == NonSpaceChars(a) + NonSpaceChars(b)
  {
    if a != [] {
      assert (a + b)[0] == a[0];
      assert (a + b)[1..] == a[1..] + b;
      NonSpaceAppend(a[1..], b);
      assert NonSpaceChars(a) + NonSpaceChars(b)
        == (if IsSpace(a[0]) then [] else [a[0]]) + (NonSpaceChars(a[1..]) + NonSpaceChars(b));
    } else {
      assert a + b == b;
    }
  }

  lemma {:induction false} NonSpaceOfWord(w: string)
    requires NoSpace(w)
    ensures NonSpaceChars(w) == w
  {
    if w != [] { NonSpaceOfWord(w[1..]); }
  }

  lemma {:induction false} NonSpaceOfAllSpace(s: string)
    requires AllSpace(s)
    ensures NonSpaceChars(s) == []
  {
    if s != [] { NonSpaceOfAllSpace(s[1..]); }
  }

  /** `split()` drops exactly the whitespace. */
  lemma {:induction false} SplitKeepsNonSpace(s: string)
    ensures Concat(Split(s)) == NonSpaceChars(s)
    decreases |s|
  {
    var t := TrimStart(s);
    var lead := s[..|s| - |t|];
    TrimStartRemovesSpace(s);
    NonSpaceAppend(lead, t);
    NonSpaceOfAllSpace(lead);
    if t != [] {
      var w := LeadingWord(t);
      var rest := t[|w|..];
      LeadingWordIsMaximal(t);
      NonSpaceAppend(w, rest);
      NonSpaceOfWord(w);
      SplitKeepsNonSpace(rest);
      var ws := Split(s);
      assert ws == [w] + Split(rest);
      assert ws[1..] == Split(rest);
      assert Concat(ws) == w + Concat(Split(rest));
    } else {
      assert Split(s) == [];
    }
  }

  /** `" ".join` adds only whitespace. */
  lemma {:induction false} JoinKeepsNonSpace(ws: seq<string>)
    requires WellFormedWords(ws)
    ensures NonSpaceChars(Join(ws)) == Concat(ws)
  {
    if |ws| == 1 {
      NonSpaceOfWord(ws[0]);
      assert Concat(ws) == ws[0] + [];
    } else if |ws| > 1 {
      var w, j := ws[0], Join(ws[1..]);
      JoinKeepsNonSpace(ws[1..]);
      NonSpaceOfWord(w);
      assert Join(ws) == w + (" " + j);
      NonSpaceAppend(w, " " + j);
      NonSpaceAppend(" ", j);
    }
  }

  // ---------------------------------------------------------------------
  // _preprocess_text

  /** Empty input gives `""`; input that is only whitespace gives `""` too,
      and any other input gives a non-empty string. */
  lemma PreprocessEmptyIffBlank(text: string)
    ensures Preprocess("") == ""
    ensures Preprocess(text) == "" <==> AllSpace(text)
  {
    SplitEmptyIffAllSpace(text);
    if !AllSpace(text) {
      JoinEnds(Split(text));
      JoinCanonical(Split(text));
    }
  }

  /** The output has no whitespace at either end, no two whitespace
      characters side by side, and only plain spaces. */
  lemma PreprocessCanonical(text: string)
    ensures Canonical(Preprocess(text))
  {
    if text != [] {
      JoinCanonical(Split(text));
    }
  }

  /** The output has exactly the words of the input: every whitespace run
      became one space and nothing else changed. */
  lemma PreprocessKeepsWords(text: string)
    ensures Split(Preprocess(text)) == Split(text)
  {
    if text != [] {
      JoinCanonical(Split(text));
      SplitJoin(Split(text));
    }
  }

  /** Every non-whitespace character survives, in its original order. */
  lemma PreprocessKeepsNonSpace(text: string)
    ensures NonSpaceChars(Preprocess(text)) == NonSpaceChars(text)
  {
    if text != [] {
      JoinCanonical(Split(text));
      JoinKeepsNonSpace(Split(text));
      SplitKeepsNonSpace(text);
    }
  }

  /** Preprocessing twice is the same as preprocessing once. */
  lemma PreprocessIdempotent(text: string)
    ensures Preprocess(Preprocess(text)) == Preprocess(text)
  {
    var p := Preprocess(text);
    if p != [] {
      PreprocessKeepsWords(text);
      JoinCanonical(Split(text));
    }
  }
}

=== FILE: ranking.dfy ===
/** Label/score entries and the two ways the system ranks them: a stable
    sort by descending score (Python's `sorted(..., reverse=True)` and
    JavaScript's `Array.prototype.sort` with comparator `b - a`, both stable)
    and the first entry of maximal score (Python's `max` with a key, which
    keeps the earliest of equal maxima). */
module Ranking {

  /** A `(label, score)` pair: a classifier output, a dictionary entry or an
      `Object.entries` element. Scores are reals; rounding is kept abstract. */
  datatype Scored = Scored(name: string, score: real)

  /** No entry scores higher than an entry before it. */
  predicate NonIncreasing(xs: seq<Scored>) {
    forall i, j :: 0 <= i < j < |xs| ==> xs[i].score >= xs[j].score
  }

  /** The names (labels) of `xs`, in order. */
  function Names(xs: seq<Scored>): (ls: seq<string>)
    ensures |ls| == |xs|
    ensures forall i :: 0 <= i < |xs| ==> ls[i] == xs[i].name
  {
    if xs == [] then [] else [xs[0].name] + Names(xs[1..])
  }

  /** Places `x` in front of the first entry of `ys` that scores strictly
      less, so that `x` stays ahead of the entries it ties with. */
  function Insert(x: Scored, ys: seq<Scored>): (r: seq<Scored>)
    ensures |r| == |ys| + 1
    ensures multiset(r) == multiset(ys) + multiset{x}
  {
    if ys == [] || x.score >= ys[0].score then [x] + ys
    else
      assert ys == [ys[0]] + ys[1..];
      [ys[0]] + Insert(x, ys[1..])
  }

  /** Inserting into a non-increasing list keeps it non-increasing. */
  lemma {:induction false} InsertKeepsOrder(x: Scored, ys: seq<Scored>)
    requires NonIncreasing(ys)
    ensures NonIncreasing(Insert(x, ys))
  {
    if ys != [] && x.score < ys[0].score {
      var rest := Insert(x, ys[1..]);
      InsertKeepsOrder(x, ys[1..]);
      forall k | 0 <= k < |rest| ensures ys[0].score >= rest[k].score {
        assert rest[k] in multiset(rest);
        assert rest[k] == x || rest[k] in ys[1..];
      }
    }
  }

  /** Stable sort by descending score. */
  function SortByScore(xs: seq<Scored>): (r: seq<Scored>)
    ensures |r| == |xs|
    ensures multiset(r) == multiset(xs)
    ensures NonIncreasing(r)
  {
    if xs == [] then []
    else
      assert xs == [xs[0]] + xs[1..];
      InsertKeepsOrder(xs[0], SortByScore(xs[1..]));
      Insert(xs[0], SortByScore(xs[1..]))
  }

  /** Index of the first entry whose score is maximal. */
  function FirstMax(xs: seq<Scored>): (m: nat)
    requires |xs| > 0
    ensures m < |xs|
    ensures forall j :: 0 <= j < |xs| ==> xs[j].score <= xs[m].score
    ensures forall j :: 0 <= j < m ==> xs[j].score < xs[m].score
  {
    if |xs| == 1 then 0
    else
      var k := 1 + FirstMax(xs[1..]);
      if xs[0].score >= xs[k].score then 0 else k
  }

  /** The head of the sorted list is the first maximal entry of the input:
      ties at the top are broken in favour of the earliest entry. */
  lemma {:induction false} SortedHeadIsFirstMax(xs: seq<Scored>)
    requires |xs| > 0
    ensures SortByScore(xs)[0] == xs[FirstMax(xs)]
  {
    if |xs| > 1 {
      SortedHeadIsFirstMax(xs[1..]);
    }
  }

  /** The entries of `xs` scoring exactly `v`, in order. */
  function Ties(xs: seq<Scored>, v: real): (r: seq<Scored>)
    ensures |r| <= |xs|
  {
    if xs == [] then []
    else if xs[0].score == v then [xs[0]] + Ties(xs[1..], v)
    else Ties(xs[1..], v)
  }

  lemma {:induction false} InsertTies(x: Scored, ys: seq<Scored>, v: real)
    ensures Ties(Insert(x, ys), v) == if x.score == v then [x] + Ties(ys, v) else Ties(ys, v)
  {
    if ys != [] && x.score < ys[0].score {
      InsertTies(x, ys[1..], v);
      assert Insert(x, ys)[1..] == Insert(x, ys[1..]);
    }
  }

  /** The sort is stable: for every score, the entries with that score
      come out in the order they went in. */
  lemma {:induction false} SortKeepsTieOrder(xs: seq<Scored>, v: real)
    ensures Ties(SortByScore(xs), v) == Ties(xs, v)
  {
    if xs != [] {
      SortKeepsTieOrder(xs[1..], v);
      InsertTies(xs[0], SortByScore(xs[1..]), v);
    }
  }
}

=== FILE: report_action_side.dfy ===
/** frontend/components/reports/ReportActionSide.tsx: the helpers of the
    report sidebar (emotion details lookup, name capitalisation, status
    badge) and what the component chooses to show for a given user and
    report. Layout, styling and the child components are not modelled; the
    rendered tree is reduced to the choices it makes. */
module ReportActionSide {
  import opened Wrappers
  import opened Ranking
  import Emotion

  // ---------------------------------------------------------------------
  // getEmotionDetails

  /** One value of `emotionMap`, or the fallback. */
  datatype Details = Details(textColor: string, bgColor: string, emoji: string, description: string)

  /** The keys of `emotionMap`, in declaration order. */
  const KNOWN_EMOTIONS: seq<string> := ["anger", "sadness", "fear", "joy", "surprise", "disgust", "neutral"]

  /** The object after `||`, used for every label without an entry. */
  const FALLBACK: Details := Entry("gray-600", "\U{1F610}", "Unknown emotion")

  /** An entry whose classes are `text-<shade>` and `bg-<shade>`. */
  function Entry(shade: string, emoji: string, description: string): (d: Details)
    ensures SameShade(d)
  {
    assert ("text-" + shade)[..5] == "text-" && ("text-" + shade)[5..] == shade;
    assert ("bg-" + shade)[..3] == "bg-" && ("bg-" + shade)[3..] == shade;
    Details("text-" + shade, "bg-" + shade, emoji, description)
  }

  /** The colour of each key of `emotionMap`, in the same order. */
  const SHADES: seq<string> := ["red-600", "blue-600", "purple-600", "green-600", "yellow-600", "orange-600", "gray-600"]

  /** The own entries of `emotionMap`. */
  function KnownDetails(emotion: string): (d: Option<Details>)
    ensures d.Some? <==> emotion in KNOWN_EMOTIONS
    ensures d.Some? ==> SameShade(d.value) && d.value.description != "Unknown emotion"
  {
    if emotion == "anger" then Some(Entry(SHADES[0], "\U{1F620}", "Strong displeasure"))
    else if emotion == "sadness" then Some(Entry(SHADES[1], "\U{1F622}", "Feeling down"))
    else if emotion == "fear" then Some(Entry(SHADES[2], "\U{1F628}", "Anxiety or worry"))
    else if emotion == "joy" then Some(Entry(SHADES[3], "\U{1F60A}", "Positive feeling"))
    else if emotion == "surprise" then Some(Entry(SHADES[4], "\U{1F632}", "Unexpected reaction"))
    else if emotion == "disgust" then Some(Entry(SHADES[5], "\U{1F922}", "Strong dislike"))
    else if emotion == "neutral" then Some(Entry(SHADES[6], "\U{1F610}", "Balanced tone"))
    else None
  }

  /** The text and background classes name the same Tailwind colour:
      `text-X` and `bg-X`. */
  predicate SameShade(d: Details) {
    && |d.textColor| >= 5 && d.textColor[..5] == "text-"
    && |d.bgColor| >= 3 && d.bgColor[..3] == "bg-"
    && d.textColor[5..] == d.bgColor[3..]
  }

  /** `getEmotionDetails(emotion)`: the table entry of a known label and the
      gray "Unknown emotion" fallback for every other string. */
  function EmotionDetails(emotion: string): (d: Details)
    ensures SameShade(d)
    ensures emotion in KNOWN_EMOTIONS ==> d.description != "Unknown emotion"
    ensures emotion !in KNOWN_EMOTIONS ==> d == FALLBACK
  {
    match KnownDetails(emotion)
    case Some(found) => found
    case None => FALLBACK
  }

  /** The table covers exactly the seven labels the classifier service
      produces. */
  lemma KnownEmotionsAreClassifierLabels()
    ensures forall e :: e in KNOWN_EMOTIONS <==> e in Emotion.EMOTION_LABELS
  {
    forall e | e in Emotion.EMOTION_LABELS ensures e in KNOWN_EMOTIONS {
      var k :| 0 <= k < |Emotion.EMOTION_LABELS| && Emotion.EMOTION_LABELS[k] == e;
      assert k < 7;
    }
  }

  /** Each known label has its own colour. */
  lemma KnownColoursDistinct(e1: string, e2: string)
    requires e1 in KNOWN_EMOTIONS && e2 in KNOWN_EMOTIONS && e1 != e2
    ensures EmotionDetails(e1).textColor != EmotionDetails(e2).textColor
  {
    var i :| 0 <= i < |KNOWN_EMOTIONS| && KNOWN_EMOTIONS[i] == e1;
    var j :| 0 <= j < |KNOWN_EMOTIONS| && KNOWN_EMOTIONS[j] == e2;
    ShadeAt(i);
    ShadeAt(j);
    ShadesDistinct(i, j);
    assert ("text-" + SHADES[i])[5..] == SHADES[i];
    assert ("text-" + SHADES[j])[5..] == SHADES[j];
  }

  /** No two shades of the table are the same colour. */
  lemma ShadesDistinct(i: nat, j: nat)
    requires i < |SHADES| && j < |SHADES| && i != j
    ensures SHADES[i] != SHADES[j]
  {
    assert SHADES[i][0] != SHADES[j][0] || SHADES[i][2] != SHADES[j][2];
  }

  /** The entry of the `i`th key has the `i`th shade. */
  lemma ShadeAt(i: nat)
    requires i < |KNOWN_EMOTIONS|
    ensures EmotionDetails(KNOWN_EMOTIONS[i]).textColor == "text-" + SHADES[i]
  {
  }

  /** An unknown label looks like "neutral" (same classes, same emoji) and
      differs from it only in its description. */
  lemma UnknownLooksNeutral(other: string)
    requires other !in KNOWN_EMOTIONS
    ensures EmotionDetails(other) == EmotionDetails("neutral").(description := "Unknown emotion")
    ensures EmotionDetails(other) != EmotionDetails("neutral")
  {
  }

  // The lookup as the source writes it: `emotionMap[emotion] || fallback`.
  // `emotionMap` is an ordinary object literal, so a key it does not own is
  // looked up on `Object.prototype`; the inherited members are functions or
  // objects, all truthy, and `||` keeps them instead of the fallback.

  /** The string-keyed members every plain object inherits from
      `Object.prototype`. */
  const PROTOTYPE_MEMBERS: set<string> :=
    {"constructor", "hasOwnProperty", "isPrototypeOf", "propertyIsEnumerable", "toLocaleString",
     "toString", "valueOf", "__proto__", "__defineGetter__", "__defineSetter__",
     "__lookupGetter__", "__lookupSetter__"}

  /** What `emotionMap[emotion] || fallback` evaluates to: a details record,
      or an inherited member that has none of the four fields. */
  datatype Looked = Own(details: Details) | Inherited(member: string)

  function LookupAsWritten(emotion: string): (r: Looked)
    ensures r.Inherited? <==> emotion in PROTOTYPE_MEMBERS
    ensures r.Own? ==> SameShade(r.details)
  {
    match KnownDetails(emotion)
    case Some(found) => Own(found)
    case None => if emotion in PROTOTYPE_MEMBERS then Inherited(emotion) else Own(FALLBACK)
  }

  /** Outside the inherited member names, the lookup as written is the
      intended one. */
  lemma LookupAsWrittenAgrees(emotion: string)
    requires emotion !in PROTOTYPE_MEMBERS
    ensures LookupAsWritten(emotion) == Own(EmotionDetails(emotion))
  {
  }

  /** The label "toString" is not in the table, yet it gets no fallback:
      the card would read `undefined` colour classes, emoji and tooltip. */
  lemma ToStringMissesFallback()
    ensures "toString" !in KNOWN_EMOTIONS
    ensures EmotionDetails("toString") == FALLBACK
    ensures LookupAsWritten("toString") == Inherited("toString")
    ensures LookupAsWritten("toString") != Own(EmotionDetails("toString"))
  {
  }

  // ---------------------------------------------------------------------
  // formatEmotionName and the status label

  /** `toUpperCase` on one character, for the ASCII letters. */
  function UpperAscii(c: char): (u: char)
    ensures 'a' <= c <= 'z' ==> 'A' <= u <= 'Z' && u as int == c as int - 32
    ensures !('a' <= c <= 'z') ==> u == c
  {
    if 'a' <= c <= 'z' then (c as int - 32) as char else c
  }

  /** `s.toUpperCase()`. */
  function ToUpper(s: string): string {
    seq(|s|, i requires 0 <= i < |s| => UpperAscii(s[i]))
  }

  /** Upper-casing keeps the length, upper-cases each character on its own,
      leaves no lower-case letter, and changes nothing but the lower-case
      letters. */
  lemma ToUpperCases(s: string)
    ensures |ToUpper(s)| == |s|
    ensures forall i :: 0 <= i < |s| ==> !('a' <= ToUpper(s)[i] <= 'z')
    ensures forall i :: 0 <= i < |s| && !('a' <= s[i] <= 'z') ==> ToUpper(s)[i] == s[i]
    ensures forall i :: 0 <= i < |s| ==> ToUpper(s)[i] == UpperAscii(s[i])
  {
  }

  /** `emotion.charAt(0).toUpperCase() + emotion.slice(1)`. */
  function FormatEmotionName(emotion: string): (r: string)
    ensures |r| == |emotion|
    ensures emotion == [] ==> r == []
    ensures emotion != [] ==> r[0] == UpperAscii(emotion[0])
    ensures forall i :: 1 <= i < |emotion| ==> r[i] == emotion[i]
  {
    if emotion == [] then [] else [UpperAscii(emotion[0])] + emotion[1..]
  }

  /** Capitalising twice is capitalising once. */
  lemma FormatEmotionNameIdempotent(emotion: string)
    ensures FormatEmotionName(FormatEmotionName(emotion)) == FormatEmotionName(emotion)
  {
    if emotion != [] {
      var once := FormatEmotionName(emotion);
      assert once[1..] == emotion[1..];
    }
  }

  /** Some of the labels as the card shows them. */
  lemma FormattedLabels()
    ensures FormatEmotionName("anger") == "Anger" && FormatEmotionName("sadness") == "Sadness"
    ensures FormatEmotionName("neutral") == "Neutral" && FormatEmotionName("surprise") == "Surprise"
  {
  }

  /** The index of the first `c` in `s`, or `|s|`. */
  function IndexOf(s: string, c: char): (i: nat)
    ensures i <= |s|
    ensures i < |s| ==> s[i] == c
    ensures forall j :: 0 <= j < i ==> s[j] != c
  {
    if s == [] then 0 else if s[0] == c then 0 else 1 + IndexOf(s[1..], c)
  }

  /** `s.replace(from, to)` with a one-character string pattern: only the
      first occurrence is replaced. */
  function ReplaceFirst(s: string, from: char, to: char): (r: string)
    ensures |r| == |s|
    ensures forall i :: 0 <= i < |s| ==> r[i] == if i == IndexOf(s, from) then to else s[i]
  {
    if s == [] then []
    else if s[0] == from then [to] + s[1..]
    else [s[0]] + ReplaceFirst(s[1..], from, to)
  }

  /** `report.status.replace("_", " ").toUpperCase()`. */
  function StatusLabel(status: string): (r: string)
    ensures |r| == |status|
    ensures forall i :: 0 <= i < |status| ==>
      r[i] == if i == IndexOf(status, '_') then ' ' else UpperAscii(status[i])
  {
    ToUpper(ReplaceFirst(status, '_', ' '))
  }

  /** The first underscore becomes a space, and everything else is
      upper-cased, later underscores included. */
  lemma StatusLabelAtFirstUnderscore(before: string, after: string)
    requires '_' !in before
    ensures StatusLabel(before + "_" + after) == ToUpper(before) + " " + ToUpper(after)
  {
    var s := before + "_" + after;
    FirstUnderscoreAt(before, after);
    var r := StatusLabel(s);
    var t := ToUpper(before) + " " + ToUpper(after);
    forall i | 0 <= i < |s| ensures r[i] == t[i] {
      if i > |before| {
        assert s[i] == after[i - |before| - 1];
      }
    }
  }

  lemma FirstUnderscoreAt(before: string, after: string)
    requires '_' !in before
    ensures IndexOf(before + "_" + after, '_') == |before|
  {
    var s := before + "_" + after;
    assert s[|before|] == '_';
    assert forall j :: 0 <= j < |before| ==> s[j] == before[j];
  }

  /** The label of "in_progress". */
  lemma StatusLabelInProgress()
    ensures StatusLabel("in_progress") == "IN PROGRESS"
  {
    var r := StatusLabel("in_progress");
    assert IndexOf("in_progress", '_') == 2;
    forall i | 0 <= i < 11 ensures r[i] == "IN PROGRESS"[i] {
    }
  }

  /** Only the first underscore becomes a space: a second one survives. */
  lemma StatusLabelSecondUnderscore()
    ensures StatusLabel("a_b_c") == "A B_C"
  {
    assert IndexOf("a_b_c", '_') == 1;
  }

  // ---------------------------------------------------------------------
  // The status badge

  /** The badge variants the status selects. */
  datatype Variant = Default | Secondary | Outline | Destructive

  /** The nested ternary on `report.status`. */
  function StatusVariant(status: string): (v: Variant)
    ensures v == Default <==> status == "resolved"
    ensures v == Secondary <==> status == "in_progress"
    ensures v == Outline <==> status == "pending"
  {
    if status == "resolved" then Default
    else if status == "in_progress" then Secondary
    else if status == "pending" then Outline
    else Destructive
  }

  /** The four `status === … && "<icon> "` children; a false condition
      renders nothing. */
  function StatusIcon(status: string): (r: string)
    ensures r == "" <==> status !in {"resolved", "in_progress", "pending", "rejected"}
    ensures |r| <= 3
    ensures r != "" ==> r[|r| - 1] == ' '
  {
    (if status == "resolved" then "\U{2705} " else "")
    + (if status == "in_progress" then "\U{23F3} " else "")
    + (if status == "pending" then "\U{23F8}\U{FE0F} " else "")
    + (if status == "rejected" then "\U{274C} " else "")
  }

  /** What the badge shows: its variant and its text. */
  datatype Badge = Badge(variant: Variant, text: string)

  function StatusBadge(status: string): (b: Badge)
    ensures b.variant == StatusVariant(status)
    ensures b.text == StatusIcon(status) + StatusLabel(status)
    ensures |b.text| >= |status|
    ensures b.text[|b.text| - |status|..] == StatusLabel(status)
  {
    Badge(StatusVariant(status), StatusIcon(status) + StatusLabel(status))
  }

  /** Every status but the three named ones is destructive, and only
      "rejected" among those carries an icon; each named status has its own
      icon. */
  lemma StatusBadgeIcons(status: string)
    ensures StatusVariant(status) == Destructive <==> status !in {"resolved", "in_progress", "pending"}
    ensures status !in {"resolved", "in_progress", "pending", "rejected"} ==> StatusIcon(status) == ""
    ensures status == "rejected" ==> StatusVariant(status) == Destructive && StatusIcon(status) == "\U{274C} "
    ensures status == "pending" ==> StatusIcon(status) == "\U{23F8}\U{FE0F} "
    ensures status == "in_progress" ==> StatusIcon(status) == "\U{23F3} "
    ensures status == "resolved" ==> StatusIcon(status) == "\U{2705} "
  {
  }

  // ---------------------------------------------------------------------
  // The emotion breakdown

  /** One row of the breakdown: the label, how it is shown, its details and
      its score. */
  datatype Row = Row(emotion: string, shown: string, details: Details, score: real)

  function RowEntries(rows: seq<Row>): (es: seq<Scored>)
    ensures |es| == |rows|
    ensures forall i :: 0 <= i < |rows| ==> es[i] == Scored(rows[i].emotion, rows[i].score)
  {
    if rows == [] then [] else [Scored(rows[0].emotion, rows[0].score)] + RowEntries(rows[1..])
  }

  /** One breakdown row: the entry itself, its label capitalised and the
      details of that label. */
  function RowFor(e: Scored): (r: Row)
    ensures Scored(r.emotion, r.score) == e
    ensures r.shown == FormatEmotionName(e.name) && r.details == EmotionDetails(e.name)
    ensures |r.shown| == |e.name|
    ensures SameShade(r.details)
    ensures e.name in KNOWN_EMOTIONS ==> r.details.description != "Unknown emotion"
    ensures e.name !in KNOWN_EMOTIONS ==> r.details == FALLBACK
  {
    Row(e.name, FormatEmotionName(e.name), EmotionDetails(e.name), e.score)
  }

  function RowsFor(es: seq<Scored>): (rows: seq<Row>)
    ensures |rows| == |es|
    ensures forall i :: 0 <= i < |es| ==> rows[i] == RowFor(es[i])
  {
    if es == [] then [] else [RowFor(es[0])] + RowsFor(es[1..])
  }

  /** `Object.entries(all_emotions).sort(([, a], [, b]) => b - a).map(…)`:
      the entries, each once, highest score first, each row shown with its
      own label's details. */
  function BreakdownRows(allEmotions: seq<Scored>): (rows: seq<Row>)
    ensures multiset(RowEntries(rows)) == multiset(allEmotions)
    ensures NonIncreasing(RowEntries(rows))
    ensures forall i :: 0 <= i < |rows| ==>
      rows[i].details == EmotionDetails(rows[i].emotion) && rows[i].shown == FormatEmotionName(rows[i].emotion)
  {
    var sorted := SortByScore(allEmotions);
    var rows := RowsFor(sorted);
    assert RowEntries(rows) == sorted;
    rows
  }

  /** Entries with equal scores keep their `Object.entries` order. */
  lemma BreakdownTiesKeepOrder(allEmotions: seq<Scored>, v: real)
    ensures Ties(RowEntries(BreakdownRows(allEmotions)), v) == Ties(allEmotions, v)
  {
    var sorted := SortByScore(allEmotions);
    assert RowEntries(RowsFor(sorted)) == sorted;
    SortKeepsTieOrder(allEmotions, v);
  }

  // ---------------------------------------------------------------------
  // What the component renders

  /** The fields of the auth store the component reads. */
  datatype User = User(isVerified: bool)
  datatype Auth = Auth(isAuthenticated: bool, user: Option<User>)

  /** `user?.is_verified`, false when there is no user. */
  predicate IsVerified(user: Option<User>) {
    user.Some? && user.value.isVerified
  }

  /** One element of `report.emotions`: the primary emotion, its score,
      the breakdown dictionary and the analysed text's content, if any. */
  datatype EmotionRecord = EmotionRecord(emotion: string, score: real, allEmotions: seq<Scored>, text: Option<string>)

  /** The fields of a report the choices depend on. */
  datatype Report = Report(status: string, emotions: Option<seq<EmotionRecord>>)

  /** The upvote and report controls: the two disabled buttons with their
      tooltips, or the live `ReportUpVote` and `ReportIssue` components. */
  datatype Actions = LoginRequired(upvoteTooltip: string, reportTooltip: string) | Controls

  /** The emotion card: the primary badge (class, emoji, name), the score,
      the breakdown rows and the analysed text. */
  datatype EmotionCard = EmotionCard(
    primaryClass: string, primaryEmoji: string, primaryName: string,
    score: real, rows: seq<Row>, analyzedText: Option<string>)

  /** The sidebar: the email-verification prompt alone, or the actions
      card, the status badge and the optional emotion card. */
  datatype Sidebar =
    | VerificationPrompt(action: string)
    | Panel(actions: Actions, status: Badge, emotionCard: Option<EmotionCard>)

  /** The card for the first emotion record: a `text-` colour class for the
      badge, the capitalised label, the score, every entry of the breakdown
      once with the highest score first, and the analysed text. */
  function CardFor(first: EmotionRecord): (c: EmotionCard)
    ensures |c.primaryClass| >= 5 && c.primaryClass[..5] == "text-"
    ensures c.primaryClass == EmotionDetails(first.emotion).textColor
    ensures c.primaryEmoji == EmotionDetails(first.emotion).emoji
    ensures c.primaryName == FormatEmotionName(first.emotion)
    ensures first.emotion !in KNOWN_EMOTIONS ==> c.primaryClass == FALLBACK.textColor
    ensures |c.primaryName| == |first.emotion|
    ensures c.score == first.score && c.analyzedText == first.text
    ensures multiset(RowEntries(c.rows)) == multiset(first.allEmotions)
    ensures NonIncreasing(RowEntries(c.rows))
    ensures forall i :: 0 <= i < |c.rows| ==>
      c.rows[i].details == EmotionDetails(c.rows[i].emotion) && c.rows[i].shown == FormatEmotionName(c.rows[i].emotion)
  {
    var d := EmotionDetails(first.emotion);
    EmotionCard(d.textColor, d.emoji, FormatEmotionName(first.emotion),
                first.score, BreakdownRows(first.allEmotions), first.text)
  }

  /** `ReportActionSide({ report })` for the given auth state. */
  function Render(auth: Auth, report: Report): (v: Sidebar)
    ensures v.VerificationPrompt? <==> auth.isAuthenticated && !IsVerified(auth.user)
    ensures v.Panel? ==> (v.actions.LoginRequired? <==> !auth.isAuthenticated)
    ensures v.Panel? ==> v.status == StatusBadge(report.status)
    ensures v.Panel? ==> (v.emotionCard.Some? <==> report.emotions.Some? && report.emotions.value != [])
    ensures v.Panel? && v.emotionCard.Some? ==>
      var first := report.emotions.value[0];
      && v.emotionCard.value.primaryClass == EmotionDetails(first.emotion).textColor
      && v.emotionCard.value.primaryName == FormatEmotionName(first.emotion)
      && multiset(RowEntries(v.emotionCard.value.rows)) == multiset(first.allEmotions)
      && NonIncreasing(RowEntries(v.emotionCard.value.rows))
  {
    if auth.isAuthenticated && !IsVerified(auth.user) then VerificationPrompt("upvote reports")
    else
      var actions :=
        if !auth.isAuthenticated
        then LoginRequired("You must be logged in to upvote", "You must be logged in to report an issue")
        else Controls;
      var card :=
        if report.emotions.Some? && |report.emotions.value| > 0 then Some(CardFor(report.emotions.value[0]))
        else None;
      Panel(actions, StatusBadge(report.status), card)
  }

  /** An authenticated user who is not verified, or who has no user record,
      sees the same prompt whatever the report. */
  lemma UnverifiedSeesOnlyPrompt(auth: Auth, r1: Report, r2: Report)
    requires auth.isAuthenticated && (auth.user.None? || !auth.user.value.isVerified)
    ensures Render(auth, r1) == Render(auth, r2) == VerificationPrompt("upvote reports")
  {
  }

  /** A visitor who is not logged in is never asked to verify: the panel
      shows the two disabled buttons with their tooltips. A verified user
      gets the live controls. */
  lemma ActionsByAuth(auth: Auth, report: Report)
    ensures !auth.isAuthenticated ==>
      Render(auth, report).Panel? && Render(auth, report).actions
        == LoginRequired("You must be logged in to upvote", "You must be logged in to report an issue")
    ensures auth.isAuthenticated && IsVerified(auth.user) ==>
      Render(auth, report).Panel? && Render(auth, report).actions == Controls
  {
  }

  /** The emotion card and the status badge depend on the report alone:
      every user who gets the panel sees the same ones. */
  lemma PanelContentIndependentOfUser(a1: Auth, a2: Auth, report: Report)
    requires Render(a1, report).Panel? && Render(a2, report).Panel?
    ensures Render(a1, report).emotionCard == Render(a2, report).emotionCard
    ensures Render(a1, report).status == Render(a2, report).status
  {
  }
}

=== FILE: score_dict.dfy ===
/** Python dictionaries from labels to scores. A dictionary keeps its keys in
    insertion order; assigning to a key that is already present replaces its
    value in place, so the key keeps its first position. A dictionary is
    written as its sequence of entries, which is also what JSON serialisation
    and `Object.entries` on the other side yield. */
module ScoreDict {
  import opened Ranking

  /** No name occurs twice. */
  predicate DistinctNames(d: seq<Scored>) {
    forall i, j :: 0 <= i < j < |d| ==> d[i].name != d[j].name
  }

  /** The set of names (keys) of `d`. */
  function Keys(d: seq<Scored>): set<string> {
    set e | e in d :: e.name
  }

  /** Position of the first entry named `k`, or `|d|` when there is none. */
  function Position(d: seq<Scored>, k: string): (i: nat)
    ensures i <= |d|
    ensures i < |d| ==> d[i].name == k
    ensures forall j :: 0 <= j < i ==> d[j].name != k
  {
    if d == [] then 0
    else if d[0].name == k then 0
    else 1 + Position(d[1..], k)
  }

  /** `d[e.name] = e.score`. */
  function Put(d: seq<Scored>, e: Scored): (r: seq<Scored>)
    requires DistinctNames(d)
    ensures DistinctNames(r)
    ensures Keys(r) == Keys(d) + {e.name}
    ensures e in r
    ensures forall f :: f in r ==> f in d || f == e
    ensures forall f :: f in d && f.name != e.name ==> f in r
    ensures e.name !in Keys(d) ==> r == d + [e]
    ensures e.name in Keys(d) ==> Names(r) == Names(d)
  {
    var i := Position(d, e.name);
    if i < |d| then
      var r := d[i := e];
      SameNameUpdate(d, i, e);
      r
    else
      FreshName(d, e);
      d + [e]
  }

  /** Replacing an entry by one with the same name keeps the names, the keys
      and their distinctness. */
  lemma SameNameUpdate(d: seq<Scored>, i: nat, e: Scored)
    requires DistinctNames(d)
    requires i < |d| && d[i].name == e.name
    ensures Names(d[i := e]) == Names(d)
    ensures DistinctNames(d[i := e])
    ensures Keys(d[i := e]) == Keys(d) + {e.name}
  {
    assert forall k :: 0 <= k < |d| ==> d[i := e][k].name == d[k].name;
    SameNameKeys(d, i, e);
  }

  lemma SameNameKeys(d: seq<Scored>, i: nat, e: Scored)
    requires i < |d| && d[i].name == e.name
    ensures Keys(d[i := e]) == Keys(d) + {e.name}
  {
    var r := d[i := e];
    forall k | k in Keys(d) ensures k in Keys(r) {
      var j :| 0 <= j < |d| && d[j].name == k;
      assert r[j].name == k;
    }
    forall k | k in Keys(r) ensures k in Keys(d) + {e.name} {
      var j :| 0 <= j < |r| && r[j].name == k;
      if j != i { assert d[j].name == k; }
    }
  }

  /** A name that no entry carries is not among the keys. */
  lemma FreshName(d: seq<Scored>, e: Scored)
    requires forall j :: 0 <= j < |d| ==> d[j].name != e.name
    ensures forall f :: f in d ==> f.name != e.name
  {
    forall f | f in d ensures f.name != e.name {
      var j :| 0 <= j < |d| && d[j] == f;
    }
  }

  /** `{e.name: e.score for e in es}`. */
  function FromEntries(es: seq<Scored>): (d: seq<Scored>)
    ensures DistinctNames(d)
    ensures Keys(d) == Keys(es)
    ensures forall f :: f in d ==> f in es
    ensures |d| <= |es|
    ensures forall i :: 0 <= i < |es| && LastWithName(es, i) ==> es[i] in d
  {
    if es == [] then []
    else
      var init := es[..|es| - 1];
      assert es == init + [es[|es| - 1]];
      var d := Put(FromEntries(init), es[|es| - 1]);
      forall i | 0 <= i < |es| - 1 && LastWithName(es, i) ensures es[i] in d {
        assert LastWithName(init, i);
      }
      d
  }

  /** No later entry of `es` has the name of entry `i`: its value is the one
      a dictionary built from `es` keeps. */
  predicate LastWithName(es: seq<Scored>, i: nat)
    requires i < |es|
  {
    forall j :: i < j < |es| ==> es[j].name != es[i].name
  }

  /** When the names are already distinct, the dictionary has exactly the
      given entries in the given order. */
  lemma {:induction false} FromDistinctEntries(es: seq<Scored>)
    requires DistinctNames(es)
    ensures FromEntries(es) == es
  {
    if es != [] {
      var init := es[..|es| - 1];
      assert es == init + [es[|es| - 1]];
      FromDistinctEntries(init);
      assert es[|es| - 1].name !in Keys(init);
    }
  }

  /** Dropping the first entry keeps names distinct, and the dropped name
      does not occur in the rest. */
  lemma DistinctTail(xs: seq<Scored>)
    requires DistinctNames(xs) && xs != []
    ensures DistinctNames(xs[1..])
    ensures forall e :: e in xs[1..] ==> e.name != xs[0].name
  {
    forall e | e in xs[1..] ensures e.name != xs[0].name {
      var j :| 0 <= j < |xs| - 1 && xs[1..][j] == e;
      assert xs[j + 1] == e;
    }
  }

  /** Sorting by score keeps names distinct. */
  lemma {:induction false} SortKeepsDistinct(xs: seq<Scored>)
    requires DistinctNames(xs)
    ensures DistinctNames(SortByScore(xs))
  {
    if xs != [] {
      DistinctTail(xs);
      SortKeepsDistinct(xs[1..]);
      var ys := SortByScore(xs[1..]);
      forall e | e in ys ensures e.name != xs[0].name {
        assert e in multiset(xs[1..]);
      }
      InsertKeepsDistinct(xs[0], ys);
    }
  }

  lemma {:induction false} InsertKeepsDistinct(x: Scored, ys: seq<Scored>)
    requires DistinctNames(ys)
    requires forall e :: e in ys ==> e.name != x.name
    ensures DistinctNames(Insert(x, ys))
  {
    if ys == [] {
    } else if x.score >= ys[0].score {
      ConsDistinct(x, ys);
    } else {
      DistinctTail(ys);
      InsertKeepsDistinct(x, ys[1..]);
      var rest := Insert(x, ys[1..]);
      forall e | e in rest ensures e.name != ys[0].name {
        assert e in multiset(rest);
      }
      ConsDistinct(ys[0], rest);
    }
  }

  lemma ConsDistinct(x: Scored, ys: seq<Scored>)
    requires DistinctNames(ys)
    requires forall e :: e in ys ==> e.name != x.name
    ensures DistinctNames([x] + ys)
  {
    var r := [x] + ys;
    forall i, j | 0 <= i < j < |r| ensures r[i].name != r[j].name {
      assert r[j] == ys[j - 1];
      if i > 0 { assert r[i] == ys[i - 1]; }
    }
  }
}

=== FILE: wrappers.dfy ===
/** Option and Result values, used for optional record fields and for
    exceptions that the modelled code lets escape. */
module Wrappers {

  datatype Option<+T> = None | Some(value: T)

  datatype Result<+R, +E> = Success(value: R) | Failure(error: E)
}
